=== FILE: README.md ===
# micropAsyncWeb, modelled in Dafny

This project models the core of `micropAsyncWeb.py`, a small asynchronous HTTP/1.x
server for MicroPython. It covers:

- the route table: its default entries, `appendRoutes` and the `route` decorator,
  the stable sort by the number of path separators and wildcards, and the
  compilation of `*` patterns into matchers;
- the request: parsing of the request line into method, url, version and path,
  the filename and extension helpers, and `dirname`;
- `handle`: the version check, the header loop that keeps three named headers,
  the route loop with its `found` flag, the 404 for an unanswered request, and
  the `except` clauses that turn an `HttpError` into an error response, drop a
  reset connection and let every other exception escape;
- `generateOutput`, which follows a chain of handlers until one is falsy or is
  a file path;
- `Response`: the status line, the blank line, the error response and
  `sendFile`, with its extension table, its block-by-block read loop and the
  mapping of "no such file" to 404.

A connection is modelled by what the server reads from it and what it writes
to it. The reads are the request line and the lines after it. The writes are a
sequence of strings. The file system is a function from file names to what
opening them gives: the content, or an `OSError` errno. A user handler is
modelled by what it does: the strings it writes, then the handler it returns
or the exception it raises.

The modules follow the program:

| module | holds |
|---|---|
| `Text` | the Python `str` operations the server uses, over `seq<char>` |
| `Handlers` | handlers, exceptions, errno values |
| `Requests` | the `Request` class, request-line parsing, path helpers, the header loop's meaning |
| `Responses` | status line, error response, file types, `sendFile` |
| `Wildcard` | what the compiled `*` expressions match |
| `RouteTable` | table entries, the sort key, the stable sort, compilation |
| `Server` | the `MicropAsyncWeb` class, handler resolution, the route loop, `handle` |

Stateful code is imperative Dafny. `Request` and `MicropAsyncWeb` are classes
whose fields the methods update. The `while`/`for` loops of the source keep
their shape, with invariants. Each method is proved equal to a pure
function (`SetupFields`, `StoreHeaders`, `SendFileResult`, `Resolve`, `Scan`,
`Serve`, `StableSort`, `CompiledTable`), and the lemmas state what the source
promises about those functions.

### Behaviour worth knowing

- A request line that does not split into exactly three words leaves the
  request's version empty, so the version check answers it with 505 "Version
  Not Supported" rather than dropping it (`ServeBadVersion`).
- In the route loop, a wildcard entry whose handler raises has that exception
  swallowed by a bare `except`. The params are cleared and the loop goes on
  with the later entries, with `found` already set (`ScanWildcardFails`), so
  no 404 follows (`ServeAnswered`). One consequence: with the default routes,
  a request for a missing file under the web root (`GET /name`) gets no
  response at all (`DefaultMissingFileUnanswered`). A missing index file at
  `/` is answered with 404, because the root entry is an exact match and its
  exception leaves the loop (`DefaultMissingIndexNotFound`).
- Whitespace, for the request-line `split()` and the header `strip()`, is
  MicroPython's: space and the five control characters \t, \n, \v, \f, \r.

## Model

| member | source | states |
|---|---|---|
| Text.Split | micropAsyncWeb.py:46 | `s.split(c)` has one more piece than `s` has `c`s, and no piece contains `c` |
| Text.JoinSplit | micropAsyncWeb.py:8 | joining the pieces of a split with the same separator gives back the string |
| Text.SplitLast | micropAsyncWeb.py:46 | the last piece of a split is the text after the last separator, or the whole string |
| Text.SplitSnoc | micropAsyncWeb.py:46 | appending a separator and a piece without one adds exactly that piece at the end of the split |
| Text.SplitNone | micropAsyncWeb.py:216 | a string without the separator splits into itself alone |
| Text.SplitFirst | micropAsyncWeb.py:43 | the first piece of a split is the text before the first separator |
| Text.SplitOnce | micropAsyncWeb.py:198 | `split(c, 1)` gives one piece exactly when `c` is absent; otherwise the text before the first `c` and the rest, which rejoin to the line |
| Text.Words | micropAsyncWeb.py:38 | every piece of `split()` is a non-empty word without whitespace |
| Text.WordsAroundSpace | micropAsyncWeb.py:38 | `split()` distributes over a whitespace character: the words of `a + sp + b` are the words of `a`, then those of `b` |
| Text.WordThenSpaces | micropAsyncWeb.py:38 | a word followed only by whitespace (a line ending) splits into that word alone |
| Text.Strip | micropAsyncWeb.py:202 | `strip()` gives the middle of the string, without leading or trailing whitespace, and everything cut off is whitespace |
| Text.CountReplace | micropAsyncWeb.py:150 | replacing every `a` by `b` adds `Count(b, c)` occurrences of `c` per `a` |
| Text.NatToStringRoundTrip | micropAsyncWeb.py:123 | the decimal text `%s` gives a natural number reads back as that number |
| Text.SignOfText | micropAsyncWeb.py:123 | the decimal text of an integer starts with '-' exactly when it is negative |
| Text.IntToStringInjective | micropAsyncWeb.py:123 | different integers have different decimal texts |
| Requests.PathOf | micropAsyncWeb.py:43 | the path is the url up to its first '?' or '#' (or all of it); it holds neither character |
| Requests.RequestLineWords | micropAsyncWeb.py:38 | a request line of three words separated by spaces, with any line ending, splits into exactly those three words |
| Requests.RequestLineRoundTrip | micropAsyncWeb.py:37-43 | parsing such a line sets method, url and version to its words and path to the url's path |
| Requests.Request.constructor | micropAsyncWeb.py:27-30 | a new request has empty headers, route and params |
| Requests.Request.Setup | micropAsyncWeb.py:37-43 | a line that is not three words leaves every field as it was (so the version stays empty and `ServeBadVersion` answers 505); otherwise method, url and version become its words and path the url's path (`RequestLineRoundTrip`) |
| Requests.DirnameFilename | micropAsyncWeb.py:7-8 | the last segment has no '/'; a path with '/' is `dirname` + "/" + its last segment; a path without '/' is its own last segment, with an empty `dirname` |
| Requests.Request.GetFilename | micropAsyncWeb.py:45-46 | the filename has no '/' and is what follows the path's last '/', or the whole path |
| Requests.Request.GetFileExtension | micropAsyncWeb.py:48-51 | the extension holds no '.'; it is taken from `filename`, or from the path's last segment when `filename` is empty, and `ExtensionIsSuffix` shows it is the text after the last '.' |
| Requests.ExtensionIsSuffix | micropAsyncWeb.py:48-51 | the extension has no '.', ends the name, and is the whole name or follows a '.' |
| Requests.HeaderEnd | micropAsyncWeb.py:196-207 | the header block ends at the first line without ':'; every line before it has one |
| Requests.StoreHeadersNext | micropAsyncWeb.py:200-205 | one more header line stores its stripped value under its name when the name is kept, and is ignored otherwise |
| Requests.LastIndexOf | micropAsyncWeb.py:204-205 | the index found is a line naming the header, or -1 |
| Requests.LastIndexOfIsLast | micropAsyncWeb.py:204-205 | no later line names that header |
| Requests.StoreHeadersKeepsLast | micropAsyncWeb.py:196-207 | a header is kept exactly when its name is one of the three kept names and occurs in the block; its value is the stripped value of its last occurrence |
| Server.MicropAsyncWeb.ReadHeaders | micropAsyncWeb.py:196-207 | the headers become those stored from the lines before the first line without ':' (reading past the end gives an empty line); no other field changes |
| Responses.Start | micropAsyncWeb.py:78-79 | the status line opens with "HTTP/1.1 " and closes with CRLF; `ErrorCode` shows its code reads back |
| Responses.HeadTerminated | micropAsyncWeb.py:78-83 | `start` then `startBody` leave a head that ends with an empty line, so what follows is the body |
| Responses.Error | micropAsyncWeb.py:122-124 | an error is two writes, the first being what `start` and `startBody` write (no headers); `ErrorFraming`, `ErrorInjective` and `ErrorReason` state the rest |
| Responses.ErrorFraming | micropAsyncWeb.py:122-124 | an error response is a status line, a blank line, and `<h1>reason</h1>` |
| Responses.ErrorInjective | micropAsyncWeb.py:122-124 | different (code, reason) pairs give different error responses |
| Responses.ErrorReason | micropAsyncWeb.py:124 | the body of an error response gives back its reason |
| Responses.ErrorCode | micropAsyncWeb.py:123 | the status line of an error response gives back its code |
| Responses.ServerCodes | micropAsyncWeb.py:123 | 404 and 505 are written as "404" and "505" |
| Responses.NotFoundHead | micropAsyncWeb.py:123 | the 404 status line, byte for byte |
| Responses.NotFoundText | micropAsyncWeb.py:122-124 | the 404 response, byte for byte |
| Responses.VersionNotSupportedHead | micropAsyncWeb.py:123 | the 505 status line, byte for byte |
| Responses.VersionNotSupportedText | micropAsyncWeb.py:122-124 | the 505 response, byte for byte |
| Responses.FileArgsBlockSizes | micropAsyncWeb.py:94-102 | binary types are read in blocks of 1024 and text types in blocks of 64; an unknown extension gets the non-binary octet-stream type |
| Responses.Read | micropAsyncWeb.py:108 | a read gives the next characters of the file, at most the block size of them and fewer only when the file ends first; it is empty exactly at the end of the file (or for a block size of 0) |
| Responses.BlocksShape | micropAsyncWeb.py:107-111 | the blocks written concatenate to the file's content; each has 1 to block-size characters, and all but the last are full |
| Responses.BlocksStep | micropAsyncWeb.py:107-111 | one turn of the read loop writes the first of the remaining blocks |
| Responses.ReadBlocks | micropAsyncWeb.py:107-111 | the read loop writes exactly the blocks of the content |
| Responses.SendFileShape | micropAsyncWeb.py:93-115 | on failure the file could not be opened and nothing is written, and the exception is 404 "File Not Found" exactly when the error is ENOENT, and otherwise the same OSError raised again with its errno; on success the head names the type's MIME type, and the blocks that follow make up the content, none longer than the type's block size |
| Responses.SendFileIgnoresPath | micropAsyncWeb.py:48-51 | given a non-empty file name, the request path plays no part in what is sent |
| Responses.SendFile | micropAsyncWeb.py:93-115 | what is written and raised is `SendFileResult` for the request's path, the file name and the file system |
| Wildcard.Match | micropAsyncWeb.py:158 | any captures returned are one path segment per `*`, in order, and substituting them into the pattern gives the path |
| Wildcard.MatchComplete | micropAsyncWeb.py:158 | when some captures fit the path, the matcher finds a match |
| Wildcard.CapturesUnique | micropAsyncWeb.py:158 | when every `*` is followed by '/' or ends the pattern, at most one list of captures fits a path |
| Wildcard.MatchFinds | micropAsyncWeb.py:158 | for such patterns the matcher returns exactly the captures that fit |
| Wildcard.RootSegmentMatch | micropAsyncWeb.py:139 | the default pattern "/*" matches "/" followed by any one segment, capturing it |
| Wildcard.SubstituteSlashCount | micropAsyncWeb.py:158 | a matched path has as many '/' as its pattern |
| RouteTable.Key | micropAsyncWeb.py:149-150 | `routeSorter`'s key is at least 1; `KeyCountsSeparators` gives its value |
| RouteTable.KeyCountsSeparators | micropAsyncWeb.py:149-150 | the sort key is one more than the number of '/' and '*' in the pattern |
| RouteTable.InsertPermutes | micropAsyncWeb.py:152 | one insertion step adds the entry and nothing else |
| RouteTable.InsertSorted | micropAsyncWeb.py:152 | inserting into a sorted table keeps it sorted |
| RouteTable.InsertKeepsClasses | micropAsyncWeb.py:152 | the inserted entry goes after every entry with the same key, and no other key's entries change order |
| RouteTable.StableSort | micropAsyncWeb.py:152 | `sorted(routes, key=routeSorter)` keeps the table's length; `StableSortCorrect` and `StableSortUnique` show it is the stable sort by key |
| RouteTable.StableSortCorrect | micropAsyncWeb.py:148-152 | the sorted table is ordered by key, is a permutation of the table, and keeps the entries of each key in their original order |
| RouteTable.StableSortUnique | micropAsyncWeb.py:152 | any table that is ordered by key and keeps the entries of each key in their original order is the one the sort gives, so the model is CPython's stable `sorted` |
| RouteTable.Compiled | micropAsyncWeb.py:156-158 | compiling keeps pattern, handler and methods, and gives an entry a matcher exactly when it had one or its pattern holds '*' |
| RouteTable.CompileIdempotent | micropAsyncWeb.py:154-158 | compiling twice reads the same as compiling once |
| Server.Registrations | micropAsyncWeb.py:142-146 | one entry is added per list given |
| Server.RegistrationsEntries | micropAsyncWeb.py:142-146 | each added entry has its list's pattern and handler, its methods or "GET", and no matcher |
| Server.MicropAsyncWeb.constructor | micropAsyncWeb.py:132-140 | port, address, web root and index file are stored, and the table is the two default entries |
| Server.MicropAsyncWeb.AppendRoutes | micropAsyncWeb.py:142-146 | the caller's lists without methods are given "GET", and the table grows by their first three elements, in order |
| Server.MicropAsyncWeb.Route | micropAsyncWeb.py:166-171 | the decorator appends [pattern, func, methods] and returns the function unchanged |
| Server.MicropAsyncWeb.SortRoutes | micropAsyncWeb.py:148-152 | the table becomes its stable sort by key (CPython's order for equal keys; see Left out) |
| Server.MicropAsyncWeb.CompileRegexRoutes | micropAsyncWeb.py:154-158 | each entry becomes its compiled form |
| Server.MicropAsyncWeb.PrepareRoutes | micropAsyncWeb.py:251-253 | the table is compiled and then sorted; the default table becomes the root entry followed by the compiled wildcard entry |
| Server.DefaultTablePrepared | micropAsyncWeb.py:137-140 | compiling and sorting the defaults gives the wildcard entry a matcher and keeps the root first |
| Server.CompiledTableAt | micropAsyncWeb.py:154-158 | every entry of the compiled table is the compiled entry |
| Server.CompiledTableMatchers | micropAsyncWeb.py:154-158 | after compiling, an entry has a matcher exactly when it had one or its pattern holds '*' |
| Server.AppendKeepsMatchers | micropAsyncWeb.py:142-146 | appending routes keeps matchers on wildcard entries only |
| Server.SortKeepsMatchers | micropAsyncWeb.py:148-152 | sorting keeps matchers on wildcard entries only |
| Server.CompileKeepsMatchers | micropAsyncWeb.py:154-158 | compiling keeps matchers on wildcard entries only |
| Server.CompileTwiceSameScan | micropAsyncWeb.py:225-228 | compiling a second time changes no dispatch, since only the first matcher is ever read |
| Server.FilenameAfterSlash | micropAsyncWeb.py:45-46 | the filename of `dir + "/" + name` is `name` |
| Server.FileTargetIndex | micropAsyncWeb.py:160-164 | a directory path and the path of its index file send the same file: the index file under the web root |
| Server.FileTargetName | micropAsyncWeb.py:160-164 | any other path sends its last segment from the web root |
| Server.MicropAsyncWeb.FileRouteHandler | micropAsyncWeb.py:160-164 | the file handler sends the path's last segment, or the index file for an empty one, from the web root |
| Server.ResolveChain | micropAsyncWeb.py:180-185 | a chain of callables writes what each writes, in order, then what its last handler produces, and raises what that one raises |
| Server.ResolveRaises | micropAsyncWeb.py:173-185 | a falsy handler produces nothing; output can only raise a 404 for a missing file, an OSError, or a callable's own exception, and an OSError for ENOENT only from a callable |
| Server.MicropAsyncWeb.GenerateOutput | micropAsyncWeb.py:173-185 | the loop writes and raises what `Resolve` says the handler chain produces |
| Server.ScanFound | micropAsyncWeb.py:209-237 | `found` is set exactly when some entry answers the request, and output is only ever appended to |
| Server.ScanSkips | micropAsyncWeb.py:215-217 | entries that do not answer the request have no effect |
| Server.ScanNothingApplies | micropAsyncWeb.py:209-237 | when no entry answers, the route loop changes nothing |
| Server.ScanExactFirst | micropAsyncWeb.py:219-223 | when the first entry that answers has the path as its very pattern, the loop ends with that handler's output and exception |
| Server.ScanWildcardFirst | micropAsyncWeb.py:225-234 | when the first entry that answers is a wildcard whose handler succeeds, the loop ends there with its pattern as the route and its captures appended to the params |
| Server.ScanWildcardFails | micropAsyncWeb.py:225-237 | when the first entry that answers is a wildcard whose handler raises, the exception is dropped: its output stays, the route is its pattern, the params are cleared, `found` is set, and the loop continues with the entries after it |
| Server.ScanLastWildcard | micropAsyncWeb.py:225-237 | a wildcard entry whose handler raises has the exception swallowed: its output stays, `found` is set and the params are cleared |
| Server.ScanByView | micropAsyncWeb.py:209-237 | dispatch reads of each entry only its pattern, handler, methods and whether it has a matcher |
| Server.PlainEntryExact | micropAsyncWeb.py:219-227 | in a table whose matchers sit only on '*' patterns, as every table operation keeps it, an entry without '*' answers only the path equal to its pattern |
| Server.AppendCaptures | micropAsyncWeb.py:230-231 | the captured groups are appended to the request's params, in order |
| Server.MicropAsyncWeb.ScanRoutes | micropAsyncWeb.py:209-237 | what the route loop writes, its `found` flag, what it raises and the route and params it leaves are what `Scan` computes |
| Server.Funnel | micropAsyncWeb.py:241-247 | an HttpError is answered with its error response after what was written; a reset connection is dropped silently; any other exception escapes with the output unchanged |
| Server.ServeBadVersion | micropAsyncWeb.py:193-194 | a line that is not three words, or names another version, gets exactly the 505 response, and no header is read |
| Server.ServeNotFound | micropAsyncWeb.py:239-240 | a supported request that no entry answers gets exactly the 404 response |
| Server.ServeEscapes | micropAsyncWeb.py:241-247 | no HttpError and no reset connection ever escapes `handle` |
| Server.MicropAsyncWeb.Handle | micropAsyncWeb.py:187-247 | what one connection writes, the exception that escapes and the request it leaves are what `Serve` computes |
| Server.ServeGet | micropAsyncWeb.py:187-247 | for a GET of a plain url that some entry answers, the connection comes to what the route loop wrote and raised, through the `except` clauses |
| Server.ServeAnswered | micropAsyncWeb.py:187-247 | a request with a supported version that some entry answers never gets the server's own 404: the connection comes to what the route loop wrote and raised, through the `except` clauses |
| Server.RequestLineOfPath | micropAsyncWeb.py:42-43 | a well-formed GET line for a url without '?' or '#' sets the path to the url |
| Server.DefaultSkipsRoot | micropAsyncWeb.py:215-223 | with the default table, a one-segment path passes over the root entry |
| Server.FileRouteByName | micropAsyncWeb.py:160-164 | for a one-segment path, the file handler sends the file of that name from the web root |
| Server.WildcardEntryServes | micropAsyncWeb.py:225-237 | the default wildcard entry answers a one-segment path, capturing the segment and sending that file; a failure to send is swallowed |
| Server.DefaultWildcardServes | micropAsyncWeb.py:225-237 | the same holds for the prepared default table |
| Server.DefaultRootScan | micropAsyncWeb.py:219-223 | with the default table, `GET /` is answered by the root entry, which sends the index file |
| Server.DefaultMissingFileUnanswered | micropAsyncWeb.py:228-237 | with the default table, a request for a missing file under the web root gets no response at all, and nothing escapes |
| Server.DefaultMissingIndexNotFound | micropAsyncWeb.py:239-243 | with the default table, `GET /` for a missing index file gets the 404 response |
| Server.DefaultRootServesIndex | micropAsyncWeb.py:160-164 | with the default table, `GET /` sends the index file, and nothing escapes |
| Server.IndexIsHtml | micropAsyncWeb.py:58 | the default index file "index.html" has the HTML file type |
| Server.DefaultFileServed | micropAsyncWeb.py:225-234 | with the default table, a present file is sent in full for the one-segment path that names it |
| Server.DefaultRootHtml | micropAsyncWeb.py:160-164 | with the default index file, `GET /` sends it as text/html in blocks of 64 |
| Server.DefaultIndexSame | micropAsyncWeb.py:160-164 | `GET /` and `GET /` followed by the index file's name send the same bytes |

## Left out

- Asynchrony and I/O. The `uasyncio` streams, `await`, `readline`, `awrite`
  and the `finally: aclose()` are not modelled: closing always happens and
  affects no output. Reads are the given lines and writes are the sequence
  of strings.
- The file system. `open` and `read` are replaced by a function from names to
  contents or errno values. The open mode (`"rb"` for a binary type, `"r"`
  otherwise) is not modelled: every file is read as characters, and the size
  of each read comes from the type's `blockSize`.
- Write failures. A failed `write` inside `sendFile` or a handler, or an
  `OSError` raised part-way through reading a file, is not modelled. Only a
  failure to open is.
- `Response.sendJson` and `json.dumps`: JSON serialisation is not part of this model.
- `Response.write`: the UTF-8 encoding of text is not modelled. Writes stay strings.
- ASCII decoding of the request and header lines is not modelled. Lines are
  taken as decoded text.
- `runAsync`'s `asyncio.start_server`. Port and address are only stored.
- The `Request` stream fields `read`, `write` and `close`, and the class
  attributes that instances shadow, are not modelled.
- Server.MicropAsyncWeb.Handle: requires every compiled pattern to avoid the
  regular-expression metacharacters `.^$+?{}[]\|()`. For those patterns, the
  hand-written matcher in `Wildcard` reads `*` as `([^/]+)` the way the
  regular-expression engine does. Patterns that use regular-expression syntax
  are not modelled.
- Route lists given to `appendRoutes` are modelled as [pattern, handler] or
  [pattern, handler, methods, ...]; shorter lists are not modelled. The table
  stores a copy of each list's first three elements, as the source does, but
  the `append("GET")` that fills a two-element list in the caller's own list is
  not modelled as an update in place: `AppendRoutes` returns the filled lists
  instead.
- User handlers are modelled by fixed behaviour: they write given strings,
  then return the next handler or raise. What they do with the request is not
  modelled, and neither is a handler returning a value of any other type.
- Concurrency between connections is not modelled: each connection is handled on its own.
- RouteTable.StableSort / Server.MicropAsyncWeb.SortRoutes: entries with equal
  keys keep their registration order, as CPython's stable `sorted` guarantees.
  MicroPython's `sorted` is an unstable quicksort and may reorder them. That
  can change which of two equal-key entries answers a path: after
  `appendRoutes([["/a*", h]])`, `"/*"` and `"/a*"` both have key 3, and the
  model sends `GET /abc` to `"/*"`. MicroPython's quicksort does not promise
  that order. The model does not capture MicroPython's quicksort order.

=== FILE: handlers.dfy ===
/**
 * What a route handler is and what can escape from one.
 *
 * In the server a handler is a file path (a string) or a coroutine function
 * called with the request; its result is again a handler, and a falsy value
 * ends the chain. User handlers are arbitrary code, so they are modelled by
 * what they do: the strings they write and what they return or raise.
 */
module Handlers {
  import opened Wrappers

  /** The exceptions the dispatcher tells apart. */
  datatype Exception =
    | HttpError(code: int, reason: string)  // HttpError(request, code, reason)
    | OSError(errno: int)                   // OSError carrying an errno
    | OtherError                            // any other exception

  /** What a step of output produced: the strings written, then the exception
      it raised, if any. */
  datatype Outcome = Outcome(writes: seq<string>, raised: Option<Exception>)

  /** MicroPython's `uerrno` values. */
  const ENOENT := 2
  const ECONNRESET := 104

  datatype Handler =
    | NoHandler                                 // a falsy value such as None
    | FilePath(path: string)                    // a string: the file to send
    | FileRoute                                 // the server's own fileRouteHandler
    | Call(writes: seq<string>, next: Handler)  // a callable that writes, then returns `next`
    | Raise(writes: seq<string>, error: Exception)  // a callable that writes, then raises

  /** Python truthiness of a handler value: None and "" are falsy. */
  predicate Truthy(h: Handler) {
    match h
    case NoHandler => false
    case FilePath(p) => p != ""
    case _ => true
  }

  /** How many more steps the resolution loop can take from `h`. */
  function Depth(h: Handler): nat {
    match h
    case Call(_, next) => 1 + Depth(next)
    case NoHandler => 0
    case _ => 1
  }
}

=== FILE: requests.dfy ===
/**
 * The request model: the request line, the path helpers and the header loop,
 * and the `Request` object whose fields the server fills in place.
 */
module Requests {
  import opened Text

  /** All fields of a request, as one value. */
  datatype RequestData = RequestData(
    httpMethod: string,
    url: string,
    path: string,
    version: string,
    headers: map<string, string>,
    route: string,
    params: seq<string>)

  /** A request as its constructor leaves it: every field empty. */
  const Initial := RequestData("", "", "", "", map[], "", [])

  /** The path of a url: everything before its first '?' or '#'. */
  function PathOf(url: string): (path: string)
    ensures |path| <= |url| && path == url[..|path|]
    ensures '?' !in path && '#' !in path
    ensures |path| == |url| || url[|path|] == '?' || url[|path|] == '#'
  {
    var marked := ReplaceChar(url, '?', "#");
    ReplaceCharLength(url, '?', '#');
    SplitFirst(marked, '#');
    var path := Split(marked, '#')[0];
    forall i | 0 <= i < |url|
      ensures marked[i] == (if url[i] == '?' then '#' else url[i])
    {
      ReplaceCharAt(url, '?', '#', i);
    }
    assert forall i :: 0 <= i < |path| ==> path[i] == marked[i] && url[i] != '?' && url[i] != '#';
    assert path == url[..|path|];
    path
  }

  /** Parsing the request line: method, url and version are taken only when
      the line splits into exactly three words; otherwise nothing changes. */
  function SetupFields(req: RequestData, line: string): RequestData {
    var items := Words(line);
    if |items| != 3 then req
    else req.(httpMethod := items[0], url := items[1], version := items[2], path := PathOf(items[1]))
  }

  /** The request line as one word, a space, and the rest. */
  lemma LineShape(m: string, u: string, v: string, eol: string)
    ensures m + " " + u + " " + v + eol == m + [' '] + (u + [' '] + (v + eol))
  {
  }

  /** A well-formed request line, with any line ending, splits into exactly
      its method, url and version. */
  lemma RequestLineWords(m: string, u: string, v: string, eol: string)
    requires IsWord(m) && IsWord(u) && IsWord(v)
    requires forall i :: 0 <= i < |eol| ==> IsSpace(eol[i])
    ensures Words(m + " " + u + " " + v + eol) == [m, u, v]
  {
    var tail := v + eol;
    var mid := u + [' '] + tail;
    LineShape(m, u, v, eol);
    assert Words(tail) == [v] by { WordThenSpaces(v, eol); }
    assert Words(mid) == [u, v] by { WordThenSpace(u, tail); }
    WordThenSpace(m, mid);
  }

  /** A well-formed request line parses back into its method, url and version. */
  lemma RequestLineRoundTrip(m: string, u: string, v: string, eol: string)
    requires IsWord(m) && IsWord(u) && IsWord(v)
    requires forall i :: 0 <= i < |eol| ==> IsSpace(eol[i])
    ensures SetupFields(Initial, m + " " + u + " " + v + eol)
      == Initial.(httpMethod := m, url := u, version := v, path := PathOf(u))
  {
    RequestLineWords(m, u, v, eol);
  }

  /** `path.split("/")[-1]`: the last path segment. */
  function Filename(path: string): string {
    var parts := Split(path, '/');
    parts[|parts| - 1]
  }

  /** `filename.split(".")[-1]`: the text after the last '.'. */
  function Extension(filename: string): string {
    var parts := Split(filename, '.');
    parts[|parts| - 1]
  }

  /** `dirname`: `"/".join(s.split("/")[:-1])`. */
  function Dirname(s: string): string {
    var parts := Split(s, '/');
    Join(parts[..|parts| - 1], '/')
  }

  /** A path is its directory, a '/', and its last segment; without a '/',
      the whole path is the last segment and the directory is empty. */
  lemma DirnameFilename(s: string)
    ensures '/' !in Filename(s)
    ensures '/' in s ==> s == Dirname(s) + "/" + Filename(s)
    ensures '/' !in s ==> Filename(s) == s && Dirname(s) == ""
  {
    SplitLast(s, '/');
    CountZero(s, '/');
  }

  /** The extension `getFileExtension(filename)` computes for a request with
      this path: that of `filename`, or of the path's last segment when
      `filename` is empty. */
  function FileExtension(path: string, filename: string): string {
    Extension(if filename == "" then Filename(path) else filename)
  }

  /** The extension is the suffix after the last '.', or the whole name. */
  lemma ExtensionIsSuffix(name: string)
    ensures var ext := Extension(name);
      '.' !in ext && |ext| <= |name| && name[|name| - |ext|..] == ext &&
      (|ext| == |name| || name[|name| - |ext| - 1] == '.')
  {
    SplitLast(name, '.');
    var parts := Split(name, '.');
    var ext := Extension(name);
    if '.' in name {
      var head := Join(parts[..|parts| - 1], '.');
      assert name == head + ['.'] + ext;
      assert name[|name| - |ext|..] == ext;
    }
  }

  /** The request headers the server keeps; names compare case-sensitively. */
  const KeptHeaders: seq<string> := ["Authorization", "Content-Length", "Content-Type"]

  /** Index of the line that ends the header block: the first line without
      ':', or |lines| when every line has one (reading past the end of the
      stream gives the empty string, which has none). */
  function HeaderEnd(lines: seq<string>): (n: nat)
    ensures n <= |lines|
    ensures forall j :: 0 <= j < n ==> ':' in lines[j]
    ensures n < |lines| ==> ':' !in lines[n]
  {
    if lines == [] || ':' !in lines[0] then 0 else 1 + HeaderEnd(lines[1..])
  }

  /** Lines that all hold ':' lie within the header block. */
  lemma HeaderEndBound(lines: seq<string>, i: nat)
    requires i <= |lines| && AllHeaderLines(lines[..i])
    ensures i <= HeaderEnd(lines)
  {
  }

  /** The first line without ':' (or the end) ends the header block. */
  lemma HeaderEndAt(lines: seq<string>, i: nat)
    requires i <= HeaderEnd(lines)
    requires i < |lines| ==> ':' !in lines[i]
    ensures i == HeaderEnd(lines)
  {
  }

  /** The header name: the text before the first ':'. */
  function HeaderName(line: string): string {
    SplitOnce(line, ':')[0]
  }

  /** The header value: the text after the first ':', stripped. */
  function HeaderValue(line: string): string
    requires ':' in line
  {
    Strip(SplitOnce(line, ':')[1])
  }

  predicate AllHeaderLines(block: seq<string>) {
    forall j :: 0 <= j < |block| ==> ':' in block[j]
  }

  /** The headers map once the loop has processed `block`, starting from `h`:
      a kept name is (re)assigned its stripped value, any other is dropped. */
  function StoreHeaders(h: map<string, string>, block: seq<string>): map<string, string>
    requires AllHeaderLines(block)
  {
    if block == [] then h
    else
      var line := block[|block| - 1];
      var stored := StoreHeaders(h, block[..|block| - 1]);
      if HeaderName(line) in KeptHeaders then stored[HeaderName(line) := HeaderValue(line)]
      else stored
  }

  /** One more header line: it is stored when its name is kept, and
      ignored otherwise. */
  lemma StoreHeadersNext(h: map<string, string>, lines: seq<string>, i: nat)
    requires i < |lines| && AllHeaderLines(lines[..i]) && ':' in lines[i]
    ensures AllHeaderLines(lines[..i + 1])
    ensures StoreHeaders(h, lines[..i + 1]) ==
      if HeaderName(lines[i]) in KeptHeaders
      then StoreHeaders(h, lines[..i])[HeaderName(lines[i]) := HeaderValue(lines[i])]
      else StoreHeaders(h, lines[..i])
  {
    assert lines[..i + 1][..i] == lines[..i];
  }

  /** Index of the last line of `block` that names `name`, or -1. */
  function LastIndexOf(block: seq<string>, name: string): (r: int)
    ensures -1 <= r < |block|
    ensures r >= 0 ==> HeaderName(block[r]) == name
  {
    if block == [] then -1
    else if HeaderName(block[|block| - 1]) == name then |block| - 1
    else LastIndexOf(block[..|block| - 1], name)
  }

  /** No line after the one `LastIndexOf` finds names `name`. */
  lemma {:induction false} LastIndexOfIsLast(block: seq<string>, name: string, k: int)
    requires LastIndexOf(block, name) < k < |block|
    ensures HeaderName(block[k]) != name
    decreases |block|
  {
    var last := |block| - 1;
    if k < last {
      var init := block[..last];
      assert LastIndexOf(block, name) == LastIndexOf(init, name) by {
        assert HeaderName(block[last]) != name;
      }
      LastIndexOfIsLast(init, name, k);
      assert init[k] == block[k];
    }
  }

  /** What the header loop keeps: exactly the kept names that occur in the
      block, each with the value of its LAST occurrence. */
  lemma {:induction false} StoreHeadersKeepsLast(block: seq<string>, name: string)
    requires AllHeaderLines(block)
    ensures name in StoreHeaders(map[], block) <==>
      name in KeptHeaders && LastIndexOf(block, name) >= 0
    ensures name in StoreHeaders(map[], block) ==>
      StoreHeaders(map[], block)[name] == HeaderValue(block[LastIndexOf(block, name)])
    decreases |block|
  {
    if block != [] {
      var init := block[..|block| - 1];
      assert AllHeaderLines(init);
      StoreHeadersKeepsLast(init, name);
    }
  }

  /** One request; the server assigns its fields in place while parsing and
      dispatching. The stream handles it also holds are not modelled. */
  class Request {
    var url: string
    var path: string
    var httpMethod: string
    var version: string
    var headers: map<string, string>
    var route: string
    var params: seq<string>

    /** All fields, as a value. */
    function Data(): RequestData
      reads this
    {
      RequestData(httpMethod, url, path, version, headers, route, params)
    }

    constructor ()
      ensures Data() == Initial
    {
      url, path, httpMethod, version := "", "", "", "";
      headers := map[];
      route := "";
      params := [];
    }

    /** `setup`: reads the request line and assigns method, url, version and
        path when it holds exactly three words. */
    method Setup(line: string)
      modifies this
      ensures Data() == SetupFields(old(Data()), line)
    {
      var items := Words(line);
      if |items| != 3 {
        return;
      }
      httpMethod, url, version := items[0], items[1], items[2];
      path := PathOf(url);
    }

    /** `getFilename`: the last segment of the path. */
    function GetFilename(): (name: string)
      reads this
      ensures '/' !in name
      ensures '/' in path ==> path == Dirname(path) + "/" + name
      ensures '/' !in path ==> name == path
    {
      DirnameFilename(path);
      Filename(path)
    }

    /** `getFileExtension`: the extension of `filename`, or of the path's
        last segment when `filename` is empty (see `ExtensionIsSuffix`). */
    function GetFileExtension(filename: string): (ext: string)
      reads this
      ensures '.' !in ext
    {
      FileExtension(path, filename)
    }
  }
}

=== FILE: responses.dfy ===
/**
 * The response emitter: the status line, the blank line before the body, the
 * uniform error response, and `sendFile` with its choice of block size and
 * MIME type by extension. A response is the sequence of strings written to
 * the stream, in order.
 */
module Responses {
  import opened Wrappers
  import opened Text
  import opened Handlers
  import opened Requests

  /** `Response.start`: the status line, which opens with the protocol and
      closes with CRLF. */
  function Start(code: int, text: string): (line: string)
    ensures |line| >= 13 && line[..9] == "HTTP/1.1 " && line[|line| - 2..] == "\r\n"
  {
    SignOfText(code);
    "HTTP/1.1 " + IntToString(code) + " " + text + "\r\n"
  }

  /** `Response.startBody`: the blank line that ends the headers. */
  const StartBody := "\r\n"

  /** After `start` and `startBody` the head ends with an empty line, so
      whatever is written next is the body. */
  lemma HeadTerminated(code: int, text: string)
    ensures var head := Start(code, text) + StartBody;
      head[..9] == "HTTP/1.1 " && head[|head| - 4..] == "\r\n\r\n"
  {
  }

  /** `Response.error`: two writes, the first of which is the status line
      and the blank line that `start` and `startBody` write, so the error has
      no headers; the second is a heading repeating the reason. */
  function Error(code: int, reason: string): (r: seq<string>)
    ensures |r| == 2 && r[0] == Start(code, reason) + StartBody
  {
    ["HTTP/1.1 " + IntToString(code) + " " + reason + "\r\n\r\n", "<h1>" + reason + "</h1>"]
  }

  /** An error response is framed like any other: status line, blank line, body. */
  lemma ErrorFraming(code: int, reason: string)
    ensures Concat(Error(code, reason)) == Start(code, reason) + StartBody + "<h1>" + reason + "</h1>"
  {
    var e := Error(code, reason);
    ConcatPair(e[0], e[1]);
  }

  /** An error response determines its status code and its reason. */
  lemma ErrorInjective(c1: int, r1: string, c2: int, r2: string)
    requires Error(c1, r1) == Error(c2, r2)
    ensures c1 == c2 && r1 == r2
  {
    ErrorReason(c1, r1, c2, r2);
    ErrorCode(c1, c2, r1);
  }

  /** The heading of an error response gives back its reason. */
  lemma ErrorReason(c1: int, r1: string, c2: int, r2: string)
    requires Error(c1, r1)[1] == Error(c2, r2)[1]
    ensures r1 == r2
  {
    Cancel("<h1>", r1, r2, "</h1>");
  }

  /** The status line of an error response: the code between a fixed
      prefix and a suffix that depends on the reason only. */
  lemma StatusLineShape(code: int, reason: string)
    ensures Error(code, reason)[0] == "HTTP/1.1 " + IntToString(code) + (" " + reason + "\r\n\r\n")
  {
  }

  /** The status line of an error response gives back its code. */
  lemma ErrorCode(c1: int, c2: int, reason: string)
    requires Error(c1, reason)[0] == Error(c2, reason)[0]
    ensures c1 == c2
  {
    StatusLineShape(c1, reason);
    StatusLineShape(c2, reason);
    Cancel("HTTP/1.1 ", IntToString(c1), IntToString(c2), " " + reason + "\r\n\r\n");
    IntToStringInjective(c1, c2);
  }

  /** The status codes the server raises itself, in decimal. */
  lemma ServerCodes()
    ensures IntToString(404) == "404" && IntToString(505) == "505"
  {
    assert DigitChar(4) == '4' && DigitChar(0) == '0' && DigitChar(5) == '5';
    assert NatToString(4) == "4" && NatToString(40) == "40";
    assert NatToString(5) == "5" && NatToString(50) == "50";
  }

  /** The status line and blank line of the 404 response. */
  lemma NotFoundHead()
    ensures Error(404, "File Not Found")[0] == "HTTP/1.1 404 File Not Found\r\n\r\n"
  {
    ServerCodes();
  }

  /** The response for a missing file, byte for byte. */
  lemma NotFoundText()
    ensures Concat(Error(404, "File Not Found")) == "HTTP/1.1 404 File Not Found\r\n\r\n" + "<h1>File Not Found</h1>"
  {
    var e := Error(404, "File Not Found");
    NotFoundHead();
    ConcatPair(e[0], e[1]);
  }

  /** The status line and blank line of the 505 response. */
  lemma VersionNotSupportedHead()
    ensures Error(505, "Version Not Supported")[0] == "HTTP/1.1 505 Version Not Supported\r\n\r\n"
  {
    ServerCodes();
  }

  /** The response for an unsupported protocol version, byte for byte. */
  lemma VersionNotSupportedText()
    ensures Concat(Error(505, "Version Not Supported"))
      == "HTTP/1.1 505 Version Not Supported\r\n\r\n" + "<h1>Version Not Supported</h1>"
  {
    var e := Error(505, "Version Not Supported");
    VersionNotSupportedHead();
    ConcatPair(e[0], e[1]);
  }

  /** How a file is read and labelled. */
  datatype FileType = FileType(binary: bool, blockSize: nat, mimeType: string)

  /** The type used when the extension is not in the table. */
  const DefaultType := FileType(false, 64, "application/octet-stream")

  /** `Response.fileTypes`. */
  const FileTypes: map<string, FileType> := map[
    "txt" := FileType(false, 64, "text/plain"),
    "htm" := FileType(false, 64, "text/html"),
    "html" := FileType(false, 64, "text/html"),
    "css" := FileType(false, 64, "text/css"),
    "js" := FileType(false, 64, "text/javascript"),
    "json" := FileType(false, 64, "application/json"),
    "ico" := FileType(true, 1024, "image/vnd.microsoft.icon"),
    "jpg" := FileType(true, 1024, "image/jpeg"),
    "png" := FileType(true, 1024, "image/png"),
    "gif" := FileType(true, 1024, "image/gif"),
    "webp" := FileType(true, 1024, "image/webp"),
    "ttf" := FileType(true, 1024, "font/ttf"),
    "otf" := FileType(true, 1024, "font/otf"),
    "woff" := FileType(true, 1024, "font/woff"),
    "woff2" := FileType(true, 1024, "font/woff2")
  ]

  /** The type `sendFile` settles on for an extension. */
  function FileArgs(extension: string): FileType {
    if extension in FileTypes then FileTypes[extension] else DefaultType
  }

  /** Every type, the default included, reads text in blocks of 64 and binary
      data in blocks of 1024; unknown extensions are served as
      non-binary octet streams. */
  lemma FileArgsBlockSizes(extension: string)
    ensures FileArgs(extension).blockSize == if FileArgs(extension).binary then 1024 else 64
    ensures extension !in FileTypes ==>
      FileArgs(extension) == FileType(false, 64, "application/octet-stream")
  {
  }

  /** What opening a file gives: its content, or an OSError's errno. The
      file system itself is not modelled. */
  datatype FileOpen = Content(data: string) | OpenFailed(errno: int)

  /** `fileHandle.read(size)` at offset `pos`: the next characters, at most
      `size` of them, and fewer only when the file ends first. */
  function Read(data: string, pos: nat, size: nat): (chunk: string)
    requires pos <= |data|
    ensures |chunk| <= |data| - pos && chunk == data[pos..pos + |chunk|]
    ensures |chunk| <= size && (|chunk| < size ==> pos + |chunk| == |data|)
    ensures chunk == [] <==> pos == |data| || size == 0
  {
    if pos + size <= |data| then data[pos..pos + size] else data[pos..]
  }

  /** The blocks the read loop writes: full blocks, then the remainder. */
  function Blocks(data: string, size: nat): seq<string>
    requires size > 0
    decreases |data|
  {
    if data == [] then []
    else if |data| <= size then [data]
    else [data[..size]] + Blocks(data[size..], size)
  }

  /** The blocks add up to the data; none is empty, none exceeds the block
      size, and all but the last are full. */
  lemma {:induction false} BlocksShape(data: string, size: nat)
    requires size > 0
    ensures var blocks := Blocks(data, size);
      Concat(blocks) == data &&
      (forall i :: 0 <= i < |blocks| ==> 0 < |blocks[i]| <= size) &&
      (forall i :: 0 <= i < |blocks| - 1 ==> |blocks[i]| == size)
    decreases |data|
  {
    if data == [] {
    } else if |data| <= size {
      assert Concat([data]) == data + Concat([]);
    } else {
      var rest := Blocks(data[size..], size);
      BlocksShape(data[size..], size);
      assert Concat([data[..size]] + rest) == data[..size] + Concat(rest);
      assert data == data[..size] + data[size..];
    }
  }

  /** One turn of the read loop: the next read is the first remaining block. */
  lemma BlocksStep(data: string, pos: nat, size: nat)
    requires pos < |data| && size > 0
    ensures var chunk := Read(data, pos, size);
      Blocks(data[pos..], size) == [chunk] + Blocks(data[pos + |chunk|..], size)
  {
    var chunk := Read(data, pos, size);
    assert data[pos..][|chunk|..] == data[pos + |chunk|..];
    if |data| - pos <= size {
      assert chunk == data[pos..];
      assert data[pos + |chunk|..] == [];
    } else {
      assert chunk == data[pos..][..size];
    }
  }

  /** The status line and headers `sendFile` writes before the content. */
  function FileHead(mimeType: string): seq<string> {
    [Start(200, "OK"), "Content-type: " + mimeType + "\r\n", StartBody]
  }

  /** `sendFile` for a request with this path: the type by extension, then
      either the head and the content block by block, or, when the file
      cannot be opened, nothing written and an exception: 404 "File Not
      Found" for ENOENT, the OSError itself otherwise. */
  function SendFileResult(path: string, filename: string, files: string -> FileOpen): (r: Outcome)
  {
    var args := FileArgs(FileExtension(path, filename));
    FileArgsBlockSizes(FileExtension(path, filename));
    match files(filename)
    case OpenFailed(errno) =>
      Outcome([], Some(if errno != ENOENT then OSError(errno) else HttpError(404, "File Not Found")))
    case Content(data) =>
      Outcome(FileHead(args.mimeType) + Blocks(data, args.blockSize), None)
  }

  /** What `sendFile` promises: on failure nothing was written, 404 is
      raised exactly for a missing file, and any other OSError is raised
      again with its own errno; on success the head names the
      type's MIME type and the blocks, each at most the type's block size,
      add up to the file's content. */
  lemma SendFileShape(path: string, filename: string, files: string -> FileOpen)
    ensures var r := SendFileResult(path, filename, files);
      r.raised.Some? ==>
        r.writes == [] && files(filename).OpenFailed? &&
        (r.raised.value == HttpError(404, "File Not Found") <==> files(filename).errno == ENOENT) &&
        (files(filename).errno != ENOENT ==> r.raised.value == OSError(files(filename).errno))
    ensures var r := SendFileResult(path, filename, files);
      var t := FileArgs(FileExtension(path, filename));
      r.raised.None? ==>
        files(filename).Content? &&
        |r.writes| >= 3 && r.writes[..3] == FileHead(t.mimeType) &&
        Concat(r.writes[3..]) == files(filename).data &&
        forall i :: 3 <= i < |r.writes| ==> 0 < |r.writes[i]| <= t.blockSize
  {
    var t := FileArgs(FileExtension(path, filename));
    FileArgsBlockSizes(FileExtension(path, filename));
    if files(filename).Content? {
      BlocksShape(files(filename).data, t.blockSize);
      var r := SendFileResult(path, filename, files);
      assert r.writes[3..] == Blocks(files(filename).data, t.blockSize);
    }
  }

  /** Given a file name, the request path plays no part in what is sent. */
  lemma SendFileIgnoresPath(p1: string, p2: string, filename: string, files: string -> FileOpen)
    requires filename != ""
    ensures SendFileResult(p1, filename, files) == SendFileResult(p2, filename, files)
  {
    assert FileExtension(p1, filename) == FileExtension(p2, filename);
  }

  /** The read loop of `sendFile`: read a block at a time and write it,
      until a read comes back empty. */
  method ReadBlocks(data: string, size: nat) returns (writes: seq<string>)
    requires size > 0
    ensures writes == Blocks(data, size)
  {
    writes := [];
    var pos := 0;
    assert data[pos..] == data;
    while true
      invariant pos <= |data|
      invariant writes + Blocks(data[pos..], size) == Blocks(data, size)
      decreases |data| - pos
    {
      var chunk := Read(data, pos, size);
      if chunk == "" {
        break;
      }
      ghost var rest := Blocks(data[pos + |chunk|..], size);
      BlocksStep(data, pos, size);
      assert (writes + [chunk]) + rest == writes + ([chunk] + rest);
      writes := writes + [chunk];
      pos := pos + |chunk|;
    }
    assert Blocks(data[pos..], size) == [];
  }

  /** `Response.sendFile`: chooses the type, opens the file, writes the head,
      then copies the content block by block. */
  method SendFile(request: Request, filename: string, files: string -> FileOpen)
    returns (writes: seq<string>, raised: Option<Exception>)
    ensures Outcome(writes, raised) == SendFileResult(request.path, filename, files)
  {
    var args := DefaultType;
    var extension := request.GetFileExtension(filename);
    if extension in FileTypes {
      args := FileTypes[extension];
    }
    assert extension == FileExtension(request.path, filename);
    assert args == FileArgs(extension);
    FileArgsBlockSizes(extension);
    match files(filename)
    case OpenFailed(errno) =>
      writes := [];
      if errno != ENOENT {
        raised := Some(OSError(errno));
      } else {
        raised := Some(HttpError(404, "File Not Found"));
      }
    case Content(data) =>
      writes := [Start(200, "OK")];
      writes := writes + ["Content-type: " + args.mimeType + "\r\n"];
      writes := writes + [StartBody];
      assert writes == FileHead(args.mimeType);
      var blocks := ReadBlocks(data, args.blockSize);
      writes := writes + blocks;
      raised := None;
  }
}

=== FILE: routetable.dfy ===
/**
 * The route table's entries, the key `sortRoutes` orders them by, the stable
 * sort that ordering is, and what compiling a wildcard entry changes.
 */
module RouteTable {
  import opened Wrappers
  import opened Text
  import opened Handlers

  /** One table entry: the list [pattern, handler, methods], plus however
      many compiled matchers `compileRegexRoutes` has appended to it (only the
      first, element 3, is ever consulted). */
  datatype Entry = Entry(pattern: string, handler: Handler, methods: string, matchers: nat)

  /** One list given to `appendRoutes`: [pattern, handler] (no methods) or
      [pattern, handler, methods, ...] (anything after methods is cut off). */
  datatype RouteArg = RouteArg(pattern: string, handler: Handler, methods: Option<string>)

  /** The caller's list after `appendRoutes` has filled in "GET". */
  function Filled(arg: RouteArg): RouteArg {
    if arg.methods.None? then arg.(methods := Some("GET")) else arg
  }

  /** The entry `appendRoutes` stores for a list: its first three elements. */
  function Registered(arg: RouteArg): Entry {
    Entry(arg.pattern, arg.handler, Filled(arg).methods.GetOr("GET"), 0)
  }

  /** `routeSorter`: the number of pieces of the pattern split on '/' once
      every '*' has become '/'. */
  function Key(pattern: string): (k: nat)
    ensures k >= 1
  {
    |Split(ReplaceChar(pattern, '*', "/"), '/')|
  }

  /** The sort key is one more than the number of '/' and '*' in the pattern. */
  lemma KeyCountsSeparators(pattern: string)
    ensures Key(pattern) == 1 + Count(pattern, '/') + Count(pattern, '*')
  {
    CountReplace(pattern, '*', "/", '/');
    assert Count("/", '/') == 1;
  }

  function KeyOf(e: Entry): nat {
    Key(e.pattern)
  }

  /** Non-decreasing in the key. */
  predicate Sorted(t: seq<Entry>) {
    forall i, j :: 0 <= i < j < |t| ==> KeyOf(t[i]) <= KeyOf(t[j])
  }

  /** The entries of `t` whose key is `k`, in table order. */
  function KeyClass(t: seq<Entry>, k: nat): (c: seq<Entry>)
  {
    if t == [] then []
    else
      var last := t[|t| - 1];
      KeyClass(t[..|t| - 1], k) + if KeyOf(last) == k then [last] else []
  }

  /** Every member of a key class is an entry of the table with that key. */
  lemma {:induction false} KeyClassMember(t: seq<Entry>, k: nat, i: nat)
    requires i < |KeyClass(t, k)|
    ensures KeyOf(KeyClass(t, k)[i]) == k && KeyClass(t, k)[i] in t
    decreases |t|
  {
    var init := t[..|t| - 1];
    if i < |KeyClass(init, k)| {
      KeyClassMember(init, k, i);
      assert KeyClass(t, k)[i] == KeyClass(init, k)[i];
    }
  }

  lemma KeyClassSnoc(t: seq<Entry>, e: Entry, k: nat)
    ensures KeyClass(t + [e], k) == KeyClass(t, k) + if KeyOf(e) == k then [e] else []
  {
    assert (t + [e])[..|t|] == t;
  }

  /** Inserts `e` after every entry, counted from the back, whose key is not
      greater than its own: the step of a stable insertion sort. */
  function Insert(t: seq<Entry>, e: Entry): (r: seq<Entry>)
    ensures |r| == |t| + 1
  {
    if t == [] then [e]
    else
      var init, last := t[..|t| - 1], t[|t| - 1];
      if KeyOf(last) <= KeyOf(e) then t + [e]
      else Insert(init, e) + [last]
  }

  /** Insert adds `e` and nothing else. */
  lemma {:induction false} InsertPermutes(t: seq<Entry>, e: Entry)
    ensures multiset(Insert(t, e)) == multiset(t) + multiset{e}
    decreases |t|
  {
    if t != [] {
      var init, last := t[..|t| - 1], t[|t| - 1];
      assert t == init + [last];
      if KeyOf(last) > KeyOf(e) {
        InsertPermutes(init, e);
      }
    }
  }

  /** Every key of the table is at most `b`. */
  predicate KeysAtMost(t: seq<Entry>, b: nat) {
    forall i :: 0 <= i < |t| ==> KeyOf(t[i]) <= b
  }

  /** A sorted table stays sorted when an entry with a key at least as large
      as all of its own is appended. */
  lemma SortedSnoc(t: seq<Entry>, x: Entry)
    requires Sorted(t) && KeysAtMost(t, KeyOf(x))
    ensures Sorted(t + [x])
  {
    var r := t + [x];
    forall i, j | 0 <= i < j < |r| ensures KeyOf(r[i]) <= KeyOf(r[j]) {
      assert r[i] == t[i];
      if j < |t| {
        assert r[j] == t[j];
      }
    }
  }

  /** A bound on every key survives an insertion that respects it. */
  lemma {:induction false} InsertBounded(t: seq<Entry>, e: Entry, b: nat)
    requires KeysAtMost(t, b) && KeyOf(e) <= b
    ensures KeysAtMost(Insert(t, e), b)
    decreases |t|
  {
    if t != [] {
      var init, last := t[..|t| - 1], t[|t| - 1];
      if KeyOf(last) > KeyOf(e) {
        assert KeysAtMost(init, b) by {
          forall i | 0 <= i < |init| ensures KeyOf(init[i]) <= b {
            assert init[i] == t[i];
          }
        }
        InsertBounded(init, e, b);
        var r', r := Insert(init, e), Insert(init, e) + [last];
        forall i | 0 <= i < |r| ensures KeyOf(r[i]) <= b {
          if i < |r'| {
            assert r[i] == r'[i];
          }
        }
      } else {
        var r := t + [e];
        forall i | 0 <= i < |r| ensures KeyOf(r[i]) <= b {
          if i < |t| {
            assert r[i] == t[i];
          }
        }
      }
    }
  }

  /** Insert into a sorted table gives a sorted table. */
  lemma {:induction false} InsertSorted(t: seq<Entry>, e: Entry)
    requires Sorted(t)
    ensures Sorted(Insert(t, e))
    decreases |t|
  {
    if t != [] {
      var init, last := t[..|t| - 1], t[|t| - 1];
      assert KeysAtMost(init, KeyOf(last)) && Sorted(init) by {
        forall i | 0 <= i < |init| ensures init[i] == t[i] {
        }
      }
      if KeyOf(last) > KeyOf(e) {
        InsertSorted(init, e);
        InsertBounded(init, e, KeyOf(last));
        SortedSnoc(Insert(init, e), last);
      } else {
        assert KeysAtMost(t, KeyOf(e)) by {
          assert KeysAtMost(init, KeyOf(e));
        }
        SortedSnoc(t, e);
      }
    }
  }

  /** Insert is stable: `e` joins the end of its key class and every other
      class is untouched. */
  lemma {:induction false} InsertKeepsClasses(t: seq<Entry>, e: Entry, k: nat)
    ensures KeyClass(Insert(t, e), k) == KeyClass(t, k) + if KeyOf(e) == k then [e] else []
    decreases |t|
  {
    if t == [] {
      KeyClassSnoc([], e, k);
      assert [] + [e] == [e];
    } else {
      var init, last := t[..|t| - 1], t[|t| - 1];
      assert t == init + [last];
      if KeyOf(last) <= KeyOf(e) {
        KeyClassSnoc(t, e, k);
      } else {
        InsertKeepsClasses(init, e, k);
        KeyClassSnoc(Insert(init, e), last, k);
        KeyClassSnoc(init, last, k);
      }
    }
  }

  /** Python's stable `sorted` by Key, as insertion from the left. */
  function StableSort(t: seq<Entry>): (r: seq<Entry>)
    ensures |r| == |t|
  {
    if t == [] then [] else Insert(StableSort(t[..|t| - 1]), t[|t| - 1])
  }

  /** The sorted table is non-decreasing in the key, a permutation of the
      input, and lists the entries of each key in their original order. */
  lemma {:induction false} StableSortCorrect(t: seq<Entry>)
    ensures Sorted(StableSort(t))
    ensures multiset(StableSort(t)) == multiset(t)
    ensures SameClasses(StableSort(t), t)
    decreases |t|
  {
    if t != [] {
      var init, last := t[..|t| - 1], t[|t| - 1];
      assert t == init + [last];
      StableSortCorrect(init);
      InsertSorted(StableSort(init), last);
      InsertPermutes(StableSort(init), last);
      forall k ensures KeyClass(StableSort(t), k) == KeyClass(t, k) {
        InsertKeepsClasses(StableSort(init), last, k);
        KeyClassSnoc(init, last, k);
      }
    }
  }

  /** The last entry of a table is the last of its key class. */
  lemma KeyClassLast(t: seq<Entry>)
    requires t != []
    ensures KeyClass(t, KeyOf(t[|t| - 1])) == KeyClass(t[..|t| - 1], KeyOf(t[|t| - 1])) + [t[|t| - 1]]
  {
  }

  /** Both tables list the entries of every key in the same order. */
  ghost predicate SameClasses(r1: seq<Entry>, r2: seq<Entry>) {
    forall k :: KeyClass(r1, k) == KeyClass(r2, k)
  }

  /** A table whose key classes are all empty is empty. */
  lemma NoClassesEmpty(t: seq<Entry>)
    requires SameClasses([], t)
    ensures t == []
  {
    NonEmptyHasClass(t);
  }

  /** A non-empty table has a non-empty key class. */
  lemma NonEmptyHasClass(t: seq<Entry>)
    ensures t != [] ==> KeyClass(t, KeyOf(t[|t| - 1])) != [] && KeyClass([], KeyOf(t[|t| - 1])) == []
  {
  }

  /** In a sorted table, an entry with key k means the last key is at least k. */
  lemma SortedLastKeyMax(r: seq<Entry>, k: nat)
    requires Sorted(r) && KeyClass(r, k) != []
    ensures r != [] && k <= KeyOf(r[|r| - 1])
  {
    var y := KeyClass(r, k)[0];
    KeyClassMember(r, k, 0);
    var i :| 0 <= i < |r| && r[i] == y;
    assert i == |r| - 1 || KeyOf(r[i]) <= KeyOf(r[|r| - 1]);
  }

  /** Two sorted tables with the same key classes end in entries of the same key. */
  lemma SortedLastKeysAgree(r1: seq<Entry>, r2: seq<Entry>)
    requires Sorted(r1) && Sorted(r2) && r1 != []
    requires SameClasses(r1, r2)
    ensures r2 != [] && KeyOf(r1[|r1| - 1]) == KeyOf(r2[|r2| - 1])
  {
    var k := KeyOf(r1[|r1| - 1]);
    KeyClassLast(r1);
    assert KeyClass(r2, k) != [];
    SortedLastKeyMax(r2, k);
    var k2 := KeyOf(r2[|r2| - 1]);
    KeyClassLast(r2);
    assert KeyClass(r1, k2) != [];
    SortedLastKeyMax(r1, k2);
  }

  /** Two sorted tables with the same key classes end in the same entry, and
      without it they still have the same key classes. */
  lemma SortedLastAgree(r1: seq<Entry>, r2: seq<Entry>)
    requires Sorted(r1) && Sorted(r2) && r1 != []
    requires SameClasses(r1, r2)
    ensures r2 != [] && r1[|r1| - 1] == r2[|r2| - 1]
    ensures SameClasses(r1[..|r1| - 1], r2[..|r2| - 1])
  {
    SortedLastKeysAgree(r1, r2);
    var x1, x2 := r1[|r1| - 1], r2[|r2| - 1];
    var i1, i2 := r1[..|r1| - 1], r2[..|r2| - 1];
    assert x1 == x2 by {
      var k := KeyOf(x1);
      var c := KeyClass(r1, k);
      KeyClassLast(r1);
      KeyClassLast(r2);
      assert c == KeyClass(i1, k) + [x1] && c == KeyClass(i2, k) + [x2];
      assert c[|c| - 1] == x1 && c[|c| - 1] == x2;
    }
    forall kk ensures KeyClass(i1, kk) == KeyClass(i2, kk) {
      var tail := if KeyOf(x1) == kk then [x1] else [];
      var c := KeyClass(r1, kk);
      assert c == KeyClass(i1, kk) + tail;
      assert c == KeyClass(r2, kk) == KeyClass(i2, kk) + tail;
      assert KeyClass(i1, kk) == c[..|c| - |tail|] == KeyClass(i2, kk);
    }
  }

  /** A sorted table is determined by its key classes: two sorted tables that
      list each key's entries in the same order are equal. */
  lemma {:induction false} SortedByClasses(r1: seq<Entry>, r2: seq<Entry>)
    requires Sorted(r1) && Sorted(r2)
    requires SameClasses(r1, r2)
    ensures r1 == r2
    decreases |r1|
  {
    if r1 == [] {
      NoClassesEmpty(r2);
    } else {
      SortedLastAgree(r1, r2);
      var i1, i2 := r1[..|r1| - 1], r2[..|r2| - 1];
      assert Sorted(i1) && Sorted(i2);
      SortedByClasses(i1, i2);
      assert r1 == i1 + [r1[|r1| - 1]] && r2 == i2 + [r2[|r2| - 1]];
    }
  }

  /** StableSort is the one stable sort: any sorted table that keeps every key
      class of `t` in order is StableSort(t). */
  lemma StableSortUnique(t: seq<Entry>, r: seq<Entry>)
    requires Sorted(r)
    requires SameClasses(r, t)
    ensures r == StableSort(t)
  {
    StableSortCorrect(t);
    SortedByClasses(r, StableSort(t));
  }

  /** `compileRegexRoutes` on one entry: a matcher is appended exactly when the
      pattern holds a '*'; pattern, handler and methods stay as they were. */
  function Compiled(e: Entry): (c: Entry)
    ensures c.pattern == e.pattern && c.handler == e.handler && c.methods == e.methods
    ensures c.matchers > 0 <==> e.matchers > 0 || '*' in e.pattern
  {
    if '*' in e.pattern then e.(matchers := e.matchers + 1) else e
  }

  /** Matchers are only ever attached to wildcard patterns: a list reaches
      index 3 only by `compileRegexRoutes`, and only when its pattern holds
      '*'. Every table operation keeps this (`AppendKeepsMatchers`,
      `SortKeepsMatchers`, `CompileKeepsMatchers`), and `PlainEntryExact`
      draws what dispatch gains from it. */
  predicate MatchersOnWildcards(t: seq<Entry>) {
    forall i :: 0 <= i < |t| ==> t[i].matchers > 0 ==> '*' in t[i].pattern
  }

  /** What dispatch reads of an entry: elements 0 to 2 and whether element 3 exists. */
  function View(e: Entry): (string, Handler, string, bool) {
    (e.pattern, e.handler, e.methods, e.matchers > 0)
  }

  /** Compiling twice reads the same as compiling once. */
  lemma CompileIdempotent(e: Entry)
    ensures View(Compiled(Compiled(e))) == View(Compiled(e))
  {
  }
}

=== FILE: server.dfy ===
/**
 * The server: its route table, the handler chain, and the handling of one
 * connection from the request line to the last byte written.
 *
 * A connection is modelled by what the server reads from it (the request
 * line and the lines after it) and what it writes to it (a sequence of
 * strings); the file system is a function from file names to what opening
 * them gives.
 */
module Server {
  import opened Wrappers
  import opened Text
  import opened Handlers
  import opened Requests
  import opened Responses
  import opened Wildcard
  import opened RouteTable

  /** What handlers see of the server besides the request: where files live,
      the file served for a directory, and the file system. */
  datatype Site = Site(webroot: string, indexFile: string, files: string -> FileOpen)

  /** The table every server starts with: the root and one wildcard segment
      under it, both answered by the server's own file handler, GET only. */
  const DefaultRoutes := [Entry("/", FileRoute, "GET", 0), Entry("/*", FileRoute, "GET", 0)]

  /** The entries `appendRoutes` adds for a list of route lists, in order. */
  function Registrations(args: seq<RouteArg>): (r: seq<Entry>)
    ensures |r| == |args|
  {
    if args == [] then [] else Registrations(args[..|args| - 1]) + [Registered(args[|args| - 1])]
  }

  /** Each registered entry carries its list's pattern and handler, the
      methods given or "GET", and no compiled matcher. */
  lemma {:induction false} RegistrationsEntries(args: seq<RouteArg>, i: nat)
    requires i < |args|
    ensures Registrations(args)[i].pattern == args[i].pattern
    ensures Registrations(args)[i].handler == args[i].handler
    ensures Registrations(args)[i].methods == (if args[i].methods.Some? then args[i].methods.value else "GET")
    ensures Registrations(args)[i].matchers == 0
    decreases |args|
  {
    if i < |args| - 1 {
      RegistrationsEntries(args[..|args| - 1], i);
    }
  }

  /** The file `fileRouteHandler` sends for a path: the path's last segment
      under the web root, or the index file when that segment is empty. */
  function FileTarget(webroot: string, indexFile: string, path: string): string {
    var name := Filename(path);
    webroot + "/" + (if name == "" then indexFile else name)
  }

  /** A directory path and its index file's path are served the same file. */
  lemma FileTargetIndex(webroot: string, indexFile: string, dir: string)
    requires '/' !in indexFile && indexFile != ""
    ensures FileTarget(webroot, indexFile, dir + "/") == FileTarget(webroot, indexFile, dir + "/" + indexFile)
      == webroot + "/" + indexFile
  {
    assert dir + "/" == dir + "/" + "";
    FilenameAfterSlash(dir, "");
    FilenameAfterSlash(dir, indexFile);
  }

  /** Any other path is served its last segment from the web root. */
  lemma FileTargetName(webroot: string, indexFile: string, dir: string, name: string)
    requires '/' !in name && name != ""
    ensures FileTarget(webroot, indexFile, dir + "/" + name) == webroot + "/" + name
  {
    FilenameAfterSlash(dir, name);
  }

  /** The last segment of `dir + "/" + name` is `name`. */
  lemma FilenameAfterSlash(dir: string, name: string)
    requires '/' !in name
    ensures Filename(dir + "/" + name) == name
  {
    SplitSnoc(dir, name, '/');
  }

  /** What a handler produces, as `generateOutput` runs it: a falsy handler
      nothing; a file path the file; the server's file handler the file its
      path names; a callable what it writes, then what the handler it
      returns produces; a raising callable what it writes, then its exception. */
  function Resolve(h: Handler, path: string, site: Site): Outcome
    decreases h
  {
    match h
    case NoHandler => Outcome([], None)
    case FilePath(p) => if p == "" then Outcome([], None) else SendFileResult(path, p, site.files)
    case FileRoute => SendFileResult(path, FileTarget(site.webroot, site.indexFile, path), site.files)
    case Call(w, next) =>
      var o := Resolve(next, path, site);
      Outcome(w + o.writes, o.raised)
    case Raise(w, e) => Outcome(w, Some(e))
  }

  /** A chain of callables, each returning the next, that ends in `last`. */
  function Chain(steps: seq<seq<string>>, last: Handler): Handler {
    if steps == [] then last else Call(steps[0], Chain(steps[1..], last))
  }

  /** The writes of several steps, one after another. */
  function Flatten(steps: seq<seq<string>>): seq<string> {
    if steps == [] then [] else steps[0] + Flatten(steps[1..])
  }

  /** A chain's output is everything its callables write, in order, followed
      by what its last handler produces; it raises what the last one raises. */
  lemma {:induction false} ResolveChain(steps: seq<seq<string>>, last: Handler, path: string, site: Site)
    ensures Resolve(Chain(steps, last), path, site).writes == Flatten(steps) + Resolve(last, path, site).writes
    ensures Resolve(Chain(steps, last), path, site).raised == Resolve(last, path, site).raised
    decreases |steps|
  {
    if steps != [] {
      ResolveChain(steps[1..], last, path, site);
    }
  }

  /** Only a file that cannot be opened or a raising callable makes a handler
      raise; a missing file raises the 404 error, so an OSError for ENOENT
      can only come from a callable. */
  lemma {:induction false} ResolveRaises(h: Handler, path: string, site: Site)
    ensures var o := Resolve(h, path, site);
      o.raised.Some? ==> o.raised.value == HttpError(404, "File Not Found") || o.raised.value.OSError? || Raises(h)
    ensures var o := Resolve(h, path, site);
      o.raised.Some? && o.raised.value.OSError? && o.raised.value.errno == ENOENT ==> Raises(h)
    ensures !Truthy(h) ==> Resolve(h, path, site) == Outcome([], None)
    decreases h
  {
    match h
    case NoHandler =>
    case FilePath(p) =>
      if p != "" { SendFileShape(path, p, site.files); }
    case FileRoute =>
      SendFileShape(path, FileTarget(site.webroot, site.indexFile, path), site.files);
    case Call(w, next) =>
      ResolveRaises(next, path, site);
    case Raise(w, e) =>
  }

  /** Whether a handler chain holds a callable that raises. */
  predicate Raises(h: Handler) {
    match h
    case Raise(_, _) => true
    case Call(_, next) => Raises(next)
    case _ => false
  }

  /** When an entry answers a request: its methods, split at ',', include the
      request's method, and the path is the pattern itself or, for an entry
      with a compiled matcher, matches it. */
  predicate Applies(e: Entry, httpMethod: string, path: string) {
    httpMethod in Split(e.methods, ',') &&
    (path == e.pattern || (e.matchers > 0 && Match(e.pattern, path).Some?))
  }

  /** What the route loop has done so far: the output, the request's route and
      params, the `found` flag and an exception leaving the loop. */
  datatype ScanState = ScanState(
    writes: seq<string>,
    route: string,
    params: seq<string>,
    found: bool,
    raised: Option<Exception>)

  /** The route loop over `table`, from state `st`. An entry whose methods do
      not include the request's is skipped. A pattern equal to the path runs
      its handler, and whatever the handler raises leaves the loop. A wildcard
      entry that matches records route and captures and runs its handler; if
      that raises anything, the exception is dropped, the captures are
      cleared and the loop goes on with `found` still set. */
  function Scan(table: seq<Entry>, httpMethod: string, path: string, site: Site, st: ScanState): ScanState
    decreases |table|
  {
    if table == [] then st
    else
      var e := table[0];
      if httpMethod !in Split(e.methods, ',') then Scan(table[1..], httpMethod, path, site, st)
      else if path == e.pattern then
        var o := Resolve(e.handler, path, site);
        st.(writes := st.writes + o.writes, found := true, raised := o.raised)
      else if e.matchers > 0 && Match(e.pattern, path).Some? then
        var o := Resolve(e.handler, path, site);
        var tried := st.(writes := st.writes + o.writes, route := e.pattern,
                         params := st.params + Match(e.pattern, path).value, found := true);
        if o.raised.None? then tried
        else Scan(table[1..], httpMethod, path, site, tried.(params := []))
      else Scan(table[1..], httpMethod, path, site, st)
  }

  /** Whether some entry of the table answers the request. */
  predicate AnyApplies(table: seq<Entry>, httpMethod: string, path: string) {
    exists i :: 0 <= i < |table| && Applies(table[i], httpMethod, path)
  }

  /** The loop reports `found` exactly when some entry answers the request
      (or it started set); output is only ever appended to. */
  lemma {:induction false} ScanFound(table: seq<Entry>, httpMethod: string, path: string, site: Site, st: ScanState)
    ensures var r := Scan(table, httpMethod, path, site, st);
      r.found == (st.found || AnyApplies(table, httpMethod, path)) &&
      |st.writes| <= |r.writes| && r.writes[..|st.writes|] == st.writes
    decreases |table|
  {
    if table != [] {
      var e := table[0];
      var r := Scan(table, httpMethod, path, site, st);
      if AnyApplies(table[1..], httpMethod, path) {
        var i :| 0 <= i < |table[1..]| && Applies(table[1..][i], httpMethod, path);
        assert Applies(table[i + 1], httpMethod, path);
      }
      if Applies(e, httpMethod, path) {
        assert AnyApplies(table, httpMethod, path);
      } else if AnyApplies(table, httpMethod, path) {
        var i :| 0 <= i < |table| && Applies(table[i], httpMethod, path);
        assert i != 0;
        assert Applies(table[1..][i - 1], httpMethod, path);
      }
      if httpMethod !in Split(e.methods, ',') || !(path == e.pattern || (e.matchers > 0 && Match(e.pattern, path).Some?)) {
        ScanFound(table[1..], httpMethod, path, site, st);
      } else if path != e.pattern {
        var o := Resolve(e.handler, path, site);
        var tried := st.(writes := st.writes + o.writes, route := e.pattern,
                         params := st.params + Match(e.pattern, path).value, found := true);
        if o.raised.Some? {
          ScanFound(table[1..], httpMethod, path, site, tried.(params := []));
          assert tried.writes[..|st.writes|] == st.writes;
        }
      }
    }
  }

  /** Entries that do not answer the request are passed over without effect:
      the loop behaves as if it started at the first one that does. */
  lemma {:induction false} ScanSkips(table: seq<Entry>, httpMethod: string, path: string, site: Site, st: ScanState, i: nat)
    requires i <= |table|
    requires forall j :: 0 <= j < i ==> !Applies(table[j], httpMethod, path)
    ensures Scan(table, httpMethod, path, site, st) == Scan(table[i..], httpMethod, path, site, st)
    decreases i
  {
    if i > 0 {
      assert !Applies(table[0], httpMethod, path);
      assert table[1..][i - 1..] == table[i..];
      ScanSkips(table[1..], httpMethod, path, site, st, i - 1);
    }
  }

  /** When no entry answers, the loop changes nothing. */
  lemma ScanNothingApplies(table: seq<Entry>, httpMethod: string, path: string, site: Site, st: ScanState)
    requires !AnyApplies(table, httpMethod, path)
    ensures Scan(table, httpMethod, path, site, st) == st
  {
    ScanSkips(table, httpMethod, path, site, st, |table|);
  }

  /** When the first entry that answers has the path as its very pattern,
      the loop ends there with that handler's output and exception. */
  lemma ScanExactFirst(table: seq<Entry>, httpMethod: string, path: string, site: Site, st: ScanState, i: nat)
    requires i < |table| && Applies(table[i], httpMethod, path) && table[i].pattern == path
    requires forall j :: 0 <= j < i ==> !Applies(table[j], httpMethod, path)
    ensures var o := Resolve(table[i].handler, path, site);
      Scan(table, httpMethod, path, site, st) == st.(writes := st.writes + o.writes, found := true, raised := o.raised)
  {
    ScanSkips(table, httpMethod, path, site, st, i);
  }

  /** When the first entry that answers is a wildcard whose handler succeeds,
      the loop ends there with its output, its pattern as the route and its
      captures appended to the params. */
  lemma ScanWildcardFirst(table: seq<Entry>, httpMethod: string, path: string, site: Site, st: ScanState, i: nat)
    requires i < |table| && Applies(table[i], httpMethod, path) && table[i].pattern != path
    requires forall j :: 0 <= j < i ==> !Applies(table[j], httpMethod, path)
    requires Resolve(table[i].handler, path, site).raised.None?
    ensures var e := table[i];
      Scan(table, httpMethod, path, site, st) ==
        st.(writes := st.writes + Resolve(e.handler, path, site).writes, route := e.pattern,
            params := st.params + Match(e.pattern, path).value, found := true)
  {
    ScanSkips(table, httpMethod, path, site, st, i);
  }

  /** When the first entry that answers is a wildcard whose handler raises,
      the exception is dropped: the handler's output stays, the route is its
      pattern, the params are cleared, `found` is set, and the loop goes on
      with the entries after it. */
  lemma ScanWildcardFails(table: seq<Entry>, httpMethod: string, path: string, site: Site, st: ScanState, i: nat)
    requires i < |table| && Applies(table[i], httpMethod, path) && table[i].pattern != path
    requires forall j :: 0 <= j < i ==> !Applies(table[j], httpMethod, path)
    requires Resolve(table[i].handler, path, site).raised.Some?
    ensures var e := table[i];
      var o := Resolve(e.handler, path, site);
      Scan(table, httpMethod, path, site, st) ==
        Scan(table[i + 1..], httpMethod, path, site,
             st.(writes := st.writes + o.writes, route := e.pattern, params := [], found := true))
  {
    ScanSkips(table, httpMethod, path, site, st, i);
    assert table[i..][1..] == table[i + 1..];
  }

  /** Dispatch reads of each entry only what View shows. */
  lemma {:induction false} ScanByView(t1: seq<Entry>, t2: seq<Entry>, httpMethod: string, path: string, site: Site, st: ScanState)
    requires |t1| == |t2|
    requires forall i :: 0 <= i < |t1| ==> View(t1[i]) == View(t2[i])
    ensures Scan(t1, httpMethod, path, site, st) == Scan(t2, httpMethod, path, site, st)
    decreases |t1|
  {
    if t1 != [] {
      assert View(t1[0]) == View(t2[0]);
      forall st' {
        ScanByView(t1[1..], t2[1..], httpMethod, path, site, st');
      }
    }
  }

  /** The table `compileRegexRoutes` leaves. */
  function CompiledTable(t: seq<Entry>): (r: seq<Entry>)
    ensures |r| == |t|
  {
    if t == [] then [] else CompiledTable(t[..|t| - 1]) + [Compiled(t[|t| - 1])]
  }

  lemma {:induction false} CompiledTableAt(t: seq<Entry>, i: nat)
    requires i < |t|
    ensures CompiledTable(t)[i] == Compiled(t[i])
    decreases |t|
  {
    if i < |t| - 1 {
      CompiledTableAt(t[..|t| - 1], i);
    }
  }

  /** After compiling, an entry has a matcher exactly when it had one or its
      pattern holds a '*'. */
  lemma CompiledTableMatchers(t: seq<Entry>)
    ensures forall i :: 0 <= i < |t| ==>
      (CompiledTable(t)[i].matchers > 0 <==> t[i].matchers > 0 || '*' in t[i].pattern)
  {
    forall i | 0 <= i < |t|
      ensures CompiledTable(t)[i].matchers > 0 <==> t[i].matchers > 0 || '*' in t[i].pattern
    {
      CompiledTableAt(t, i);
    }
  }

  /** Appending routes keeps matchers on wildcard entries only. */
  lemma AppendKeepsMatchers(t: seq<Entry>, args: seq<RouteArg>)
    requires MatchersOnWildcards(t)
    ensures MatchersOnWildcards(t + Registrations(args))
  {
    var appended := t + Registrations(args);
    forall i | |t| <= i < |appended| ensures appended[i].matchers == 0 {
      RegistrationsEntries(args, i - |t|);
    }
  }

  /** Sorting keeps matchers on wildcard entries only. */
  lemma SortKeepsMatchers(t: seq<Entry>)
    requires MatchersOnWildcards(t)
    ensures MatchersOnWildcards(StableSort(t))
  {
    var sorted := StableSort(t);
    StableSortCorrect(t);
    forall i | 0 <= i < |sorted| ensures sorted[i].matchers > 0 ==> '*' in sorted[i].pattern {
      assert sorted[i] in multiset(t);
      var j :| 0 <= j < |t| && t[j] == sorted[i];
    }
  }

  /** Compiling keeps matchers on wildcard entries only. */
  lemma CompileKeepsMatchers(t: seq<Entry>)
    requires MatchersOnWildcards(t)
    ensures MatchersOnWildcards(CompiledTable(t))
  {
    CompiledTableMatchers(t);
  }

  /** Compiling a second time changes no dispatch: the extra matcher is never read. */
  lemma CompileTwiceSameScan(t: seq<Entry>, httpMethod: string, path: string, site: Site, st: ScanState)
    ensures Scan(CompiledTable(CompiledTable(t)), httpMethod, path, site, st)
         == Scan(CompiledTable(t), httpMethod, path, site, st)
  {
    var once, twice := CompiledTable(t), CompiledTable(CompiledTable(t));
    forall i | 0 <= i < |twice| ensures View(twice[i]) == View(once[i]) {
      CompiledTableAt(t, i);
      CompiledTableAt(once, i);
      CompileIdempotent(t[i]);
    }
    ScanByView(twice, once, httpMethod, path, site, st);
  }

  /** The regular-expression compiler reads these patterns the way Match does. */
  predicate PlainWildcards(table: seq<Entry>) {
    forall i :: 0 <= i < |table| ==> table[i].matchers > 0 ==> Plain(table[i].pattern)
  }

  /** In a table whose matchers sit on wildcard patterns only, an entry
      without '*' answers nothing but its own path. */
  lemma PlainEntryExact(t: seq<Entry>, i: nat, httpMethod: string, path: string)
    requires MatchersOnWildcards(t) && i < |t| && '*' !in t[i].pattern
    requires Applies(t[i], httpMethod, path)
    ensures path == t[i].pattern
  {
  }

  /** The two `except` clauses around dispatch: an HttpError is answered with
      its error response; an OSError for a reset connection is dropped;
      anything else escapes `handle`. */
  function Funnel(writes: seq<string>, raised: Option<Exception>): (r: Outcome)
    ensures r.raised.Some? ==> r.raised == raised && r.writes == writes
    ensures r.raised.Some? <==>
      raised.Some? && !raised.value.HttpError? && raised.value != OSError(ECONNRESET)
    ensures raised.Some? && raised.value.HttpError? ==>
      r.writes == writes + Error(raised.value.code, raised.value.reason)
    ensures (raised.None? || raised == Some(OSError(ECONNRESET))) ==> r.writes == writes
  {
    match raised
    case None => Outcome(writes, None)
    case Some(HttpError(code, reason)) => Outcome(writes + Error(code, reason), None)
    case Some(OSError(errno)) => if errno != ECONNRESET then Outcome(writes, raised) else Outcome(writes, None)
    case Some(OtherError) => Outcome(writes, raised)
  }

  /** What one connection comes to: the strings written, the exception that
      escapes (if any), and the request as it was left. */
  datatype Served = Served(writes: seq<string>, escaped: Option<Exception>, request: RequestData)

  predicate SupportedVersion(version: string) {
    version == "HTTP/1.0" || version == "HTTP/1.1"
  }

  /** `handle` for a request line and the lines after it: version check,
      header loop, route loop, 404 when nothing answered, then the funnel. */
  function Serve(table: seq<Entry>, site: Site, line: string, lines: seq<string>): Served {
    var req := SetupFields(Initial, line);
    if !SupportedVersion(req.version) then
      var o := Funnel([], Some(HttpError(505, "Version Not Supported")));
      Served(o.writes, o.raised, req)
    else
      var withHeaders := req.(headers := StoreHeaders(req.headers, lines[..HeaderEnd(lines)]));
      var st := Scan(table, req.httpMethod, req.path, site,
                     ScanState([], withHeaders.route, withHeaders.params, false, None));
      var raised := if st.raised.None? && !st.found then Some(HttpError(404, "File Not Found")) else st.raised;
      var o := Funnel(st.writes, raised);
      Served(o.writes, o.raised, withHeaders.(route := st.route, params := st.params))
  }

  /** A request line that is not three words, or names another protocol
      version, is answered with 505 and nothing else; no header is read. */
  lemma ServeBadVersion(table: seq<Entry>, site: Site, line: string, lines: seq<string>)
    requires |Words(line)| != 3 || !SupportedVersion(Words(line)[2])
    ensures Serve(table, site, line, lines).writes == Error(505, "Version Not Supported")
    ensures Serve(table, site, line, lines).escaped == None
    ensures Serve(table, site, line, lines).request.headers == map[]
  {
  }

  /** A supported request that no entry answers gets the 404 response and
      nothing else. */
  lemma ServeNotFound(table: seq<Entry>, site: Site, line: string, lines: seq<string>)
    requires |Words(line)| == 3 && SupportedVersion(Words(line)[2])
    requires !AnyApplies(table, Words(line)[0], PathOf(Words(line)[1]))
    ensures Serve(table, site, line, lines).writes == Error(404, "File Not Found")
    ensures Serve(table, site, line, lines).escaped == None
  {
    var req := SetupFields(Initial, line);
    ScanNothingApplies(table, req.httpMethod, req.path, site, ScanState([], "", [], false, None));
  }

  /** Nothing the server raises itself escapes `handle`: every HttpError is
      answered and a reset connection is ignored; what escapes is an OSError
      or an exception from a raising callable. */
  lemma ServeEscapes(table: seq<Entry>, site: Site, line: string, lines: seq<string>)
    ensures var s := Serve(table, site, line, lines);
      s.escaped.Some? ==> !s.escaped.value.HttpError? && s.escaped.value != OSError(ECONNRESET)
  {
  }

  /** The table `runAsync` leaves when no route was added: compiled, then sorted. */
  const PreparedDefaults := [Entry("/", FileRoute, "GET", 0), Entry("/*", FileRoute, "GET", 1)]

  /** Compiling gives the wildcard default a matcher; sorting keeps the root
      first, its key (2) being below the wildcard's (3). */
  lemma DefaultTablePrepared()
    ensures StableSort(CompiledTable(DefaultRoutes)) == PreparedDefaults
  {
    var root, any := Entry("/", FileRoute, "GET", 0), Entry("/*", FileRoute, "GET", 1);
    assert CompiledTable(DefaultRoutes) == [root, any] by {
      assert DefaultRoutes[..1] == [DefaultRoutes[0]];
      assert CompiledTable(DefaultRoutes[..1]) == [root];
    }
    KeyCountsSeparators("/");
    KeyCountsSeparators("/*");
    assert KeyOf(root) == 2 && KeyOf(any) == 3;
    assert [root, any][..1] == [root];
    assert StableSort([root]) == [root];
  }

  /** The request state a connection starts the route loop with. */
  const ScanStart := ScanState([], "", [], false, None)

  /** In the prepared default table, the root entry does not answer a
      one-segment path other than the root. */
  lemma DefaultSkipsRoot(site: Site, name: string)
    requires IsSegment(name)
    ensures Scan(PreparedDefaults, "GET", "/" + name, site, ScanStart)
         == Scan([Entry("/*", FileRoute, "GET", 1)], "GET", "/" + name, site, ScanStart)
  {
    var path := "/" + name;
    assert !Applies(PreparedDefaults[0], "GET", path) by {
      assert path != "/";
    }
    ScanSkips(PreparedDefaults, "GET", path, site, ScanStart, 1);
  }

  /** The compiled wildcard entry answers a one-segment path other than the
      literal wildcard with the segment as its capture, sending the file of
      that name; a failure to send is swallowed. */
  lemma WildcardEntryServes(site: Site, name: string)
    requires IsSegment(name) && name != "*"
    ensures var r := Scan([Entry("/*", FileRoute, "GET", 1)], "GET", "/" + name, site, ScanStart);
      var o := SendFileResult("/" + name, site.webroot + "/" + name, site.files);
      r.found && r.raised.None? &&
      (o.raised.None? ==> r.writes == o.writes && r.route == "/*" && r.params == [name]) &&
      (o.raised.Some? ==> r.writes == [] && r.params == [])
  {
    var path := "/" + name;
    var e := Entry("/*", FileRoute, "GET", 1);
    assert path != "/*" by {
      assert path[1..] == name;
    }
    RootSegmentMatch(name);
    assert Applies(e, "GET", path) by { SplitNone("GET", ','); }
    ScanLastWildcard(e, "GET", path, site, ScanStart);
    FileRouteByName(site, name);
    SendFileShape(path, site.webroot + "/" + name, site.files);
  }

  /** A last entry that answers through its wildcard leaves its pattern as the
      route; when its handler raises, the exception is swallowed, the output
      stays and the params are cleared. */
  lemma ScanLastWildcard(e: Entry, httpMethod: string, path: string, site: Site, st: ScanState)
    requires Applies(e, httpMethod, path) && e.pattern != path
    ensures var r := Scan([e], httpMethod, path, site, st);
      var o := Resolve(e.handler, path, site);
      r.found && r.raised == st.raised && r.route == e.pattern &&
      r.writes == st.writes + o.writes &&
      r.params == (if o.raised.None? then st.params + Match(e.pattern, path).value else [])
  {
    assert [e][1..] == [];
  }

  /** The file route sends, for a one-segment path, the file of that name
      under the web root. */
  lemma FileRouteByName(site: Site, name: string)
    requires IsSegment(name)
    ensures Resolve(FileRoute, "/" + name, site) == SendFileResult("/" + name, site.webroot + "/" + name, site.files)
  {
    FileTargetName(site.webroot, site.indexFile, [], name);
    assert [] + "/" + name == "/" + name;
  }

  /** In the prepared default table, a one-segment path other than the
      literal wildcard is answered by the wildcard entry with the segment as
      its capture, and the file of that name under the web root is sent. If
      that file cannot be opened, the exception is swallowed: nothing is
      written, yet the request counts as found. */
  lemma DefaultWildcardServes(site: Site, name: string)
    requires IsSegment(name) && name != "*"
    ensures var r := Scan(PreparedDefaults, "GET", "/" + name, site, ScanStart);
      var o := SendFileResult("/" + name, site.webroot + "/" + name, site.files);
      r.found && r.raised.None? &&
      (o.raised.None? ==> r.writes == o.writes && r.route == "/*" && r.params == [name]) &&
      (o.raised.Some? ==> r.writes == [] && r.params == [])
  {
    DefaultSkipsRoot(site, name);
    WildcardEntryServes(site, name);
  }

  /** A request line naming a url without query or fragment sets the path to
      the url. */
  lemma RequestLineOfPath(m: string, url: string)
    requires IsWord(m) && IsWord(url) && '?' !in url && '#' !in url
    ensures var req := SetupFields(Initial, m + " " + url + " " + "HTTP/1.1" + "\r\n");
      req.httpMethod == m && req.path == url && req.version == "HTTP/1.1"
  {
    assert IsWord("HTTP/1.1");
    RequestLineRoundTrip(m, url, "HTTP/1.1", "\r\n");
    assert forall i :: 0 <= i < |url| ==> url[i] != '?' && url[i] != '#';
  }

  /** A GET request for a plain url, once some entry answered it, comes to
      what the scan wrote and raised, through the funnel. */
  lemma ServeGet(table: seq<Entry>, site: Site, url: string, lines: seq<string>)
    requires IsWord(url) && '?' !in url && '#' !in url
    ensures var st := Scan(table, "GET", url, site, ScanStart);
      var s := Serve(table, site, "GET " + url + " HTTP/1.1\r\n", lines);
      var o := Funnel(st.writes, st.raised);
      st.found ==> s.writes == o.writes && s.escaped == o.raised
  {
    assert "GET " + url + " HTTP/1.1\r\n" == "GET" + " " + url + " " + "HTTP/1.1" + "\r\n";
    RequestLineOfPath("GET", url);
  }

  /** A request that some entry answers never gets the server's own 404:
      the connection comes to what the route loop wrote and raised, through
      the funnel, whatever its handlers did. */
  lemma ServeAnswered(table: seq<Entry>, site: Site, line: string, lines: seq<string>)
    requires |Words(line)| == 3 && SupportedVersion(Words(line)[2])
    requires AnyApplies(table, Words(line)[0], PathOf(Words(line)[1]))
    ensures var st := Scan(table, Words(line)[0], PathOf(Words(line)[1]), site, ScanStart);
      var s := Serve(table, site, line, lines);
      var o := Funnel(st.writes, st.raised);
      s.writes == o.writes && s.escaped == o.raised
  {
    ScanFound(table, Words(line)[0], PathOf(Words(line)[1]), site, ScanStart);
  }

  /** In the prepared default table, `GET /` is answered by the root entry,
      which sends the index file. */
  lemma DefaultRootScan(site: Site)
    ensures var r := Scan(PreparedDefaults, "GET", "/", site, ScanStart);
      var o := SendFileResult("/", site.webroot + "/" + site.indexFile, site.files);
      r.found && r.writes == o.writes && r.raised == o.raised
  {
    SplitNone("GET", ',');
    assert Filename("/") == "";
  }

  /** With the default routes, a missing file under the web root gets an
      empty response and no 404: the wildcard entry swallows the error. */
  lemma DefaultMissingFileUnanswered(site: Site, name: string, lines: seq<string>)
    requires IsSegment(name) && IsWord(name) && name != "*" && '?' !in name && '#' !in name
    requires site.files(site.webroot + "/" + name) == OpenFailed(ENOENT)
    ensures Serve(PreparedDefaults, site, "GET /" + name + " HTTP/1.1\r\n", lines).writes == []
    ensures Serve(PreparedDefaults, site, "GET /" + name + " HTTP/1.1\r\n", lines).escaped == None
  {
    var url := "/" + name;
    assert IsWord(url);
    assert "GET /" + name + " HTTP/1.1\r\n" == "GET " + url + " HTTP/1.1\r\n";
    ServeGet(PreparedDefaults, site, url, lines);
    DefaultWildcardServes(site, name);
    SendFileShape(url, site.webroot + "/" + name, site.files);
  }

  /** With the default routes, a missing index file is answered with 404. */
  lemma DefaultMissingIndexNotFound(site: Site, lines: seq<string>)
    requires site.files(site.webroot + "/" + site.indexFile).OpenFailed?
    requires site.files(site.webroot + "/" + site.indexFile).errno == ENOENT
    ensures Serve(PreparedDefaults, site, "GET / HTTP/1.1\r\n", lines).writes == Error(404, "File Not Found")
  {
    assert IsWord("/");
    assert "GET / HTTP/1.1\r\n" == "GET " + "/" + " HTTP/1.1\r\n";
    ServeGet(PreparedDefaults, site, "/", lines);
    DefaultRootScan(site);
    SendFileShape("/", site.webroot + "/" + site.indexFile, site.files);
  }

  /** With the default routes, `GET /` is answered by the root entry with
      the index file, sent in full when it is present. */
  lemma DefaultRootServesIndex(site: Site, lines: seq<string>)
    requires site.files(site.webroot + "/" + site.indexFile).Content?
    ensures Serve(PreparedDefaults, site, "GET / HTTP/1.1\r\n", lines).writes
         == SendFileResult("/", site.webroot + "/" + site.indexFile, site.files).writes
    ensures Serve(PreparedDefaults, site, "GET / HTTP/1.1\r\n", lines).escaped == None
  {
    assert IsWord("/");
    assert "GET / HTTP/1.1\r\n" == "GET " + "/" + " HTTP/1.1\r\n";
    ServeGet(PreparedDefaults, site, "/", lines);
    DefaultRootScan(site);
    SendFileShape("/", site.webroot + "/" + site.indexFile, site.files);
  }

  /** The file type of the default index file is HTML. */
  lemma IndexIsHtml(webroot: string)
    ensures FileArgs(Extension(webroot + "/index.html")) == FileType(false, 64, "text/html")
  {
    assert webroot + "/index.html" == (webroot + "/index") + "." + "html";
    SplitSnoc(webroot + "/index", "html", '.');
  }

  /** With the default routes, a present file under the web root is sent
      in full for the one-segment path that names it. */
  lemma DefaultFileServed(site: Site, name: string, lines: seq<string>)
    requires IsSegment(name) && IsWord(name) && name != "*" && '?' !in name && '#' !in name
    requires site.files(site.webroot + "/" + name).Content?
    ensures Serve(PreparedDefaults, site, "GET /" + name + " HTTP/1.1\r\n", lines).writes
         == SendFileResult("/" + name, site.webroot + "/" + name, site.files).writes
    ensures Serve(PreparedDefaults, site, "GET /" + name + " HTTP/1.1\r\n", lines).escaped == None
  {
    var url := "/" + name;
    assert IsWord(url);
    assert "GET /" + name + " HTTP/1.1\r\n" == "GET " + url + " HTTP/1.1\r\n";
    ServeGet(PreparedDefaults, site, url, lines);
    DefaultWildcardServes(site, name);
    SendFileShape(url, site.webroot + "/" + name, site.files);
  }

  /** The root of the default table sends the index file as HTML. */
  lemma DefaultRootHtml(site: Site, lines: seq<string>)
    requires site.indexFile == "index.html"
    requires site.files(site.webroot + "/index.html").Content?
    ensures var data := site.files(site.webroot + "/index.html").data;
      Serve(PreparedDefaults, site, "GET / HTTP/1.1\r\n", lines).writes
        == FileHead("text/html") + Blocks(data, 64)
  {
    assert site.webroot + "/" + site.indexFile == site.webroot + "/index.html";
    DefaultRootServesIndex(site, lines);
    IndexIsHtml(site.webroot);
  }

  /** With the default routes, `GET /` and `GET /` + the index file are
      served the same bytes when the index file exists (with the default
      index file, DefaultRootHtml says which: its content as text/html). */
  lemma DefaultIndexSame(site: Site, lines: seq<string>)
    requires var name := site.indexFile;
      IsSegment(name) && IsWord(name) && name != "*" && '?' !in name && '#' !in name
    requires site.files(site.webroot + "/" + site.indexFile).Content?
    ensures Serve(PreparedDefaults, site, "GET /" + site.indexFile + " HTTP/1.1\r\n", lines).writes
         == Serve(PreparedDefaults, site, "GET / HTTP/1.1\r\n", lines).writes
  {
    var target := site.webroot + "/" + site.indexFile;
    DefaultRootServesIndex(site, lines);
    DefaultFileServed(site, site.indexFile, lines);
    SendFileIgnoresPath("/" + site.indexFile, "/", target, site.files);
  }

  /** The capture loop of `handle`: each group of the match is appended to
      the request's parameters, in order. */
  method AppendCaptures(request: Request, caps: seq<string>)
    modifies request
    ensures request.Data() == old(request.Data()).(params := old(request.params) + caps)
  {
    for group := 0 to |caps|
      invariant request.Data() == old(request.Data()).(params := old(request.params) + caps[..group])
    {
      assert caps[..group + 1] == caps[..group] + [caps[group]];
      request.params := request.params + [caps[group]];
    }
    assert caps[..|caps|] == caps;
  }

  /** The server. Port and address are only handed to the listener. */
  class MicropAsyncWeb {
    const port: int
    const address: string
    const webroot: string
    const indexFile: string
    var routes: seq<Entry>

    constructor (port: int := 80, address: string := "0.0.0.0", webroot: string := ".", indexFile: string := "index.html")
      ensures this.port == port && this.address == address
      ensures this.webroot == webroot && this.indexFile == indexFile
      ensures routes == DefaultRoutes
    {
      this.port := port;
      this.address := address;
      this.webroot := webroot;
      this.indexFile := indexFile;
      routes := DefaultRoutes;
    }

    /** Everything handlers see of this server, given the file system. */
    function SiteWith(files: string -> FileOpen): Site {
      Site(webroot, indexFile, files)
    }

    /** `appendRoutes`: each list without methods is given "GET" (in place,
        hence returned), then its first three elements are appended. */
    method AppendRoutes(args: seq<RouteArg>) returns (filled: seq<RouteArg>)
      modifies this
      ensures |filled| == |args|
      ensures forall i :: 0 <= i < |args| ==> filled[i] == Filled(args[i])
      ensures routes == old(routes) + Registrations(args)
    {
      filled := [];
      for i := 0 to |args|
        invariant |filled| == i
        invariant forall j :: 0 <= j < i ==> filled[j] == Filled(args[j])
        invariant routes == old(routes) + Registrations(args[..i])
      {
        var route := args[i];
        if route.methods.None? {
          route := route.(methods := Some("GET"));
        }
        filled := filled + [route];
        assert args[..i + 1][..i] == args[..i];
        routes := routes + [Entry(route.pattern, route.handler, route.methods.value, 0)];
      }
      assert args[..|args|] == args;
    }

    /** `route(pattern, methods)(func)`: appends [pattern, func, methods] and
        gives back the function itself. */
    method Route(pattern: string, func: Handler, methods: string := "GET") returns (decorated: Handler)
      modifies this
      ensures decorated == func
      ensures routes == old(routes) + [Entry(pattern, func, methods, 0)]
    {
      routes := routes + [Entry(pattern, func, methods, 0)];
      decorated := func;
    }

    /** `sortRoutes`: the table stably sorted by key. */
    method SortRoutes()
      modifies this
      ensures routes == StableSort(old(routes))
    {
      routes := StableSort(routes);
    }

    /** `compileRegexRoutes`: each wildcard entry gets one more matcher. */
    method CompileRegexRoutes()
      modifies this
      ensures routes == CompiledTable(old(routes))
    {
      ghost var original := routes;
      for i := 0 to |routes|
        invariant |routes| == |original|
        invariant forall j :: 0 <= j < i ==> routes[j] == Compiled(original[j])
        invariant forall j :: i <= j < |routes| ==> routes[j] == original[j]
      {
        if '*' in routes[i].pattern {
          routes := routes[i := routes[i].(matchers := routes[i].matchers + 1)];
        }
      }
      forall j | 0 <= j < |routes| ensures routes[j] == CompiledTable(original)[j] {
        CompiledTableAt(original, j);
      }
    }

    /** What `runAsync` does to the table before it starts listening:
        compile, then sort. */
    method PrepareRoutes()
      modifies this
      ensures routes == StableSort(CompiledTable(old(routes)))
      ensures old(routes) == DefaultRoutes ==> routes == PreparedDefaults
    {
      CompileRegexRoutes();
      SortRoutes();
      DefaultTablePrepared();
    }

    /** `fileRouteHandler`: sends the path's last segment, or the index
        file, from the web root. */
    method FileRouteHandler(request: Request, files: string -> FileOpen)
      returns (writes: seq<string>, raised: Option<Exception>)
      ensures Outcome(writes, raised) == SendFileResult(request.path, FileTarget(webroot, indexFile, request.path), files)
    {
      var filename := request.GetFilename();
      if filename == "" {
        filename := indexFile;
      }
      writes, raised := SendFile(request, webroot + "/" + filename, files);
    }

    /** `generateOutput`: follows the handler chain while the handler is
        truthy; a string is sent as a file and ends the chain. */
    method GenerateOutput(request: Request, handler: Handler, files: string -> FileOpen)
      returns (writes: seq<string>, raised: Option<Exception>)
      ensures Outcome(writes, raised) == Resolve(handler, request.path, SiteWith(files))
    {
      ghost var site := SiteWith(files);
      ghost var goal := Resolve(handler, request.path, site);
      var h := handler;
      writes, raised := [], None;
      while Truthy(h)
        invariant writes + Resolve(h, request.path, site).writes == goal.writes
        invariant Resolve(h, request.path, site).raised == goal.raised
        decreases Depth(h)
      {
        match h
        case FilePath(p) =>
          var w, r := SendFile(request, p, files);
          writes, raised := writes + w, r;
          return;
        case FileRoute =>
          var w, r := FileRouteHandler(request, files);
          writes := writes + w;
          if r.Some? {
            raised := r;
            return;
          }
          h := NoHandler;
        case Call(w, next) =>
          writes := writes + w;
          h := next;
        case Raise(w, e) =>
          writes, raised := writes + w, Some(e);
          return;
      }
      ResolveRaises(h, request.path, site);
    }

    /** The header loop of `handle`: reads lines until one has no ':',
        keeping the stripped values of the headers the server keeps. Reading
        past the last line gives the empty string. */
    method ReadHeaders(request: Request, lines: seq<string>)
      modifies request
      ensures request.Data() == old(request.Data()).(headers := StoreHeaders(old(request.headers), lines[..HeaderEnd(lines)]))
    {
      var i := 0;
      while true
        invariant i <= HeaderEnd(lines)
        invariant AllHeaderLines(lines[..i])
        invariant request.headers == StoreHeaders(old(request.headers), lines[..i])
        invariant request.Data() == old(request.Data()).(headers := request.headers)
        decreases |lines| - i
      {
        var line := if i < |lines| then lines[i] else "";
        var items := SplitOnce(line, ':');
        if |items| == 2 {
          var header, value := items[0], Strip(items[1]);
          assert i < |lines| && header == HeaderName(line) && value == HeaderValue(line);
          StoreHeadersNext(old(request.headers), lines, i);
          if header in KeptHeaders {
            request.headers := request.headers[header := value];
          }
          i := i + 1;
          HeaderEndBound(lines, i);
        } else {
          HeaderEndAt(lines, i);
          break;
        }
      }
    }

    /** The route loop of `handle`, with its `found` flag. */
    method ScanRoutes(request: Request, files: string -> FileOpen)
      returns (writes: seq<string>, found: bool, raised: Option<Exception>)
      modifies request
      ensures var st := Scan(routes, old(request.httpMethod), old(request.path), SiteWith(files),
                             ScanState([], old(request.route), old(request.params), false, None));
        writes == st.writes && found == st.found && raised == st.raised &&
        request.Data() == old(request.Data()).(route := st.route, params := st.params)
    {
      ghost var site := SiteWith(files);
      ghost var goal := Scan(routes, request.httpMethod, request.path, site,
                             ScanState([], request.route, request.params, false, None));
      writes, found, raised := [], false, None;
      for i := 0 to |routes|
        invariant request.Data() == old(request.Data()).(route := request.route, params := request.params)
        invariant goal == Scan(routes[i..], request.httpMethod, request.path, site,
                               ScanState(writes, request.route, request.params, found, None))
      {
        var e := routes[i];
        assert routes[i..][1..] == routes[i + 1..];
        if request.httpMethod !in Split(e.methods, ',') {
          continue;
        }
        if request.path == e.pattern {
          found := true;
          var w, r := GenerateOutput(request, e.handler, files);
          writes, raised := writes + w, r;
          return;
        }
        if e.matchers > 0 {
          var m := Match(e.pattern, request.path);
          if m.Some? {
            AppendCaptures(request, m.value);
            request.route := e.pattern;
            found := true;
            var w, r := GenerateOutput(request, e.handler, files);
            writes := writes + w;
            if r.None? {
              return;
            }
            request.params := [];
          }
        }
      }
    }

    /** `handle` for one connection. */
    method Handle(line: string, lines: seq<string>, files: string -> FileOpen)
      returns (writes: seq<string>, escaped: Option<Exception>, request: Request)
      requires PlainWildcards(routes)
      ensures Served(writes, escaped, request.Data()) == Serve(routes, SiteWith(files), line, lines)
    {
      request := new Request();
      request.Setup(line);
      writes := [];
      var raised: Option<Exception> := None;
      if request.version != "HTTP/1.0" && request.version != "HTTP/1.1" {
        raised := Some(HttpError(505, "Version Not Supported"));
      } else {
        ReadHeaders(request, lines);
        var found;
        writes, found, raised := ScanRoutes(request, files);
        if raised.None? && !found {
          raised := Some(HttpError(404, "File Not Found"));
        }
      }
      escaped := None;
      if raised.Some? {
        match raised.value
        case HttpError(code, reason) =>
          writes := writes + Error(code, reason);
        case OSError(errno) =>
          if errno != ECONNRESET {
            escaped := raised;
          }
        case OtherError =>
          escaped := raised;
      }
    }
  }
}

=== FILE: text.dfy ===
/**
 * The handful of Python string operations the server relies on, written out
 * over `seq<char>`: `str.count`, `str.replace`, `str.split(sep)`, `str.join`,
 * `str.split()` on whitespace, `str.strip()` and `str(int)`.
 */
module Text {

  /** The whitespace of MicroPython's `str.split()` and `str.strip()`: space
      and \t, \n, \v, \f, \r. Unlike CPython, it does not count the
      separators \x1c..\x1f or any non-ASCII character as whitespace. */
  predicate IsSpace(c: char) {
    c == ' ' || 9 <= c as int <= 13
  }

  /** `s.count(c)` for a one-character `c`. */
  function Count(s: string, c: char): nat {
    if s == [] then 0 else (if s[0] == c then 1 else 0) + Count(s[1..], c)
  }

  lemma {:induction false} CountAppend(s: string, t: string, c: char)
    ensures Count(s + t, c) == Count(s, c) + Count(t, c)
    decreases |s|
  {
    if s != [] {
      assert (s + t)[0] == s[0];
      assert (s + t)[1..] == s[1..] + t;
      CountAppend(s[1..], t, c);
    } else {
      assert s + t == t;
    }
  }

  lemma {:induction false} CountZero(s: string, c: char)
    ensures Count(s, c) == 0 <==> c !in s
    decreases |s|
  {
    if s != [] {
      CountZero(s[1..], c);
      assert s == [s[0]] + s[1..];
    }
  }

  /** `s.replace(a, b)` for a one-character `a`. */
  function ReplaceChar(s: string, a: char, b: string): string {
    if s == [] then [] else (if s[0] == a then b else [s[0]]) + ReplaceChar(s[1..], a, b)
  }

  lemma MulSucc(n: int, k: int)
    ensures (n + 1) * k == n * k + k
  {
  }

  /** Replacing `a` by `b` turns every `a` into one copy of `b`'s occurrences of `c`. */
  lemma {:induction false} CountReplace(s: string, a: char, b: string, c: char)
    requires a != c
    ensures Count(ReplaceChar(s, a, b), c) == Count(s, c) + Count(s, a) * Count(b, c)
    decreases |s|
  {
    if s != [] {
      var head := if s[0] == a then b else [s[0]];
      var k := Count(b, c);
      CountReplace(s[1..], a, b, c);
      CountAppend(head, ReplaceChar(s[1..], a, b), c);
      assert Count(head, c) == if s[0] == a then k else if s[0] == c then 1 else 0 by {
        if s[0] != a { assert head[1..] == []; }
      }
      var n := Count(s[1..], a);
      if s[0] == a {
        assert Count(s, a) == n + 1;
        MulSucc(n, k);
      } else {
        assert Count(s, a) == n;
      }
    }
  }

  lemma {:induction false} ReplaceCharLength(s: string, a: char, b: char)
    ensures |ReplaceChar(s, a, [b])| == |s|
    decreases |s|
  {
    if s != [] { ReplaceCharLength(s[1..], a, b); }
  }

  /** Replacing a character by a single character keeps positions. */
  lemma {:induction false} ReplaceCharAt(s: string, a: char, b: char, i: nat)
    requires i < |s|
    ensures |ReplaceChar(s, a, [b])| == |s|
    ensures ReplaceChar(s, a, [b])[i] == if s[i] == a then b else s[i]
    decreases |s|
  {
    ReplaceCharLength(s, a, b);
    if i > 0 {
      ReplaceCharAt(s[1..], a, b, i - 1);
    }
  }

  /** `s.split(c)`: the pieces between occurrences of `c`; there is always one
      more piece than there are separators, and no piece holds the separator. */
  function Split(s: string, c: char): (parts: seq<string>)
    ensures |parts| == Count(s, c) + 1
    ensures forall i :: 0 <= i < |parts| ==> c !in parts[i]
  {
    if s == [] then [""]
    else
      var rest := Split(s[1..], c);
      if s[0] == c then [""] + rest
      else [[s[0]] + rest[0]] + rest[1..]
  }

  /** `c.join(parts)`. */
  function Join(parts: seq<string>, c: char): string {
    if parts == [] then ""
    else if |parts| == 1 then parts[0]
    else parts[0] + [c] + Join(parts[1..], c)
  }

  /** Joining the pieces of a split with the same separator gives back the string. */
  lemma {:induction false} JoinSplit(s: string, c: char)
    ensures Join(Split(s, c), c) == s
    decreases |s|
  {
    if s != [] {
      var rest := Split(s[1..], c);
      JoinSplit(s[1..], c);
      if s[0] == c {
        assert ([""] + rest)[1..] == rest;
      } else {
        var parts := [[s[0]] + rest[0]] + rest[1..];
        if |rest| > 1 {
          assert parts[1..] == rest[1..];
        }
      }
    }
  }

  lemma {:induction false} JoinSnoc(parts: seq<string>, y: string, c: char)
    requires parts != []
    ensures Join(parts + [y], c) == Join(parts, c) + [c] + y
    decreases |parts|
  {
    if |parts| > 1 {
      assert (parts + [y])[1..] == parts[1..] + [y];
      JoinSnoc(parts[1..], y, c);
    }
  }

  /** The last piece of a split is the text after the last separator: the
      string is the join of the other pieces, the separator, then that piece. */
  lemma SplitLast(s: string, c: char)
    ensures var parts := Split(s, c);
      var last := parts[|parts| - 1];
      c !in last &&
      (if c in s then s == Join(parts[..|parts| - 1], c) + [c] + last else s == last)
  {
    var parts := Split(s, c);
    JoinSplit(s, c);
    CountZero(s, c);
    if c in s {
      assert parts == parts[..|parts| - 1] + [parts[|parts| - 1]];
      JoinSnoc(parts[..|parts| - 1], parts[|parts| - 1], c);
    }
  }

  /** A string without the separator splits into itself alone. */
  lemma SplitNone(s: string, c: char)
    requires c !in s
    ensures Split(s, c) == [s]
  {
    CountZero(s, c);
    JoinSplit(s, c);
  }

  /** Appending a separator and a piece without one adds that piece to the split. */
  lemma {:induction false} SplitSnoc(a: string, b: string, c: char)
    requires c !in b
    ensures Split(a + [c] + b, c) == Split(a, c) + [b]
    decreases |a|
  {
    if a == [] {
      assert ([c] + b)[1..] == b;
      SplitNone(b, c);
    } else {
      assert (a + [c] + b)[1..] == a[1..] + [c] + b;
      SplitSnoc(a[1..], b, c);
    }
  }

  /** The first piece of a split is the text before the first separator. */
  lemma SplitFirst(s: string, c: char)
    ensures var first := Split(s, c)[0];
      |first| <= |s| && first == s[..|first|] && c !in first &&
      (|first| == |s| || s[|first|] == c)
  {
    var parts := Split(s, c);
    JoinSplit(s, c);
    if |parts| > 1 {
      assert s == parts[0] + [c] + Join(parts[1..], c);
    }
  }

  /** `s.find(c)`, with `|s|` standing for "not found". */
  function IndexOf(s: string, c: char): (i: nat)
    ensures i <= |s|
    ensures c !in s[..i]
    ensures i < |s| ==> s[i] == c
  {
    if s == [] then 0
    else if s[0] == c then 0
    else
      var j := IndexOf(s[1..], c);
      assert s[..j + 1] == [s[0]] + s[1..][..j];
      1 + j
  }

  /** `s.split(c, 1)`: one piece when `c` does not occur, else the text before
      and after its first occurrence. */
  function SplitOnce(s: string, c: char): (parts: seq<string>)
    ensures c !in s <==> |parts| == 1
    ensures |parts| == 1 ==> parts[0] == s
    ensures |parts| == 2 ==> parts[0] + [c] + parts[1] == s && c !in parts[0]
    ensures 1 <= |parts| <= 2
  {
    var i := IndexOf(s, c);
    if i == |s| then
      assert s[..i] == s;
      [s]
    else
      assert s == s[..i] + [c] + s[i + 1..];
      [s[..i], s[i + 1..]]
  }

  /** Length of the leading run of non-whitespace characters. */
  function SpanNonSpace(s: string): (n: nat)
    ensures n <= |s|
    ensures forall i :: 0 <= i < n ==> !IsSpace(s[i])
    ensures n < |s| ==> IsSpace(s[n])
  {
    if s == [] || IsSpace(s[0]) then 0 else 1 + SpanNonSpace(s[1..])
  }

  /** A word of `str.split()`: non-empty, without whitespace. */
  predicate IsWord(w: string) {
    w != [] && forall i :: 0 <= i < |w| ==> !IsSpace(w[i])
  }

  /** `s.split()`: the maximal runs of non-whitespace characters, in order. */
  function Words(s: string): (words: seq<string>)
    ensures forall i :: 0 <= i < |words| ==> IsWord(words[i])
    decreases |s|
  {
    if s == [] then []
    else if IsSpace(s[0]) then Words(s[1..])
    else
      var n := SpanNonSpace(s);
      [s[..n]] + Words(s[n..])
  }

  lemma WordsOfWord(w: string)
    requires IsWord(w)
    ensures Words(w) == [w]
  {
    assert SpanNonSpace(w) == |w|;
    assert w[..|w|] == w;
    assert w[|w|..] == [];
    assert Words(w) == [w[..|w|]] + Words(w[|w|..]);
  }

  lemma WordsOfSpaces(s: string)
    requires forall i :: 0 <= i < |s| ==> IsSpace(s[i])
    ensures Words(s) == []
    decreases |s|
  {
    if s != [] { WordsOfSpaces(s[1..]); }
  }

  /** Splitting on whitespace distributes over a whitespace character. */
  lemma {:induction false} WordsAroundSpace(a: string, sp: char, b: string)
    requires IsSpace(sp)
    ensures Words(a + [sp] + b) == Words(a) + Words(b)
    decreases |a|, 1
  {
    var s := a + [sp] + b;
    if a == [] {
      assert s[1..] == b;
    } else if IsSpace(a[0]) {
      assert s[1..] == a[1..] + [sp] + b;
      WordsAroundSpace(a[1..], sp, b);
    } else {
      WordFirstAroundSpace(a, sp, b);
    }
  }

  /** The case of `WordsAroundSpace` where `a` starts with a word. */
  lemma {:induction false} WordFirstAroundSpace(a: string, sp: char, b: string)
    requires IsSpace(sp) && a != [] && !IsSpace(a[0])
    ensures Words(a + [sp] + b) == Words(a) + Words(b)
    decreases |a|, 0
  {
    var s := a + [sp] + b;
    var m := SpanNonSpace(a);
    assert Words(s) == [a[..m]] + Words(s[m..]) by {
      SpanAgree(s, a, m);
      assert s[..m] == a[..m];
    }
    assert Words(s[m..]) == Words(a[m..]) + Words(b) by {
      if m == |a| {
        assert s[m..] == [sp] + b;
        assert s[m..][1..] == b;
        assert a[m..] == [];
      } else {
        assert s[m..] == a[m..] + [sp] + b;
        WordsAroundSpace(a[m..], sp, b);
      }
    }
  }

  lemma {:induction false} SpanAgree(s: string, a: string, m: nat)
    requires m <= |a| && m < |s|
    requires forall i :: 0 <= i < m ==> s[i] == a[i] && !IsSpace(a[i])
    requires IsSpace(s[m])
    ensures SpanNonSpace(s) == m
    decreases m
  {
    if m > 0 {
      SpanAgree(s[1..], a[1..], m - 1);
    }
  }

  /** A word followed only by whitespace is one word. */
  lemma WordThenSpaces(w: string, tail: string)
    requires IsWord(w)
    requires forall i :: 0 <= i < |tail| ==> IsSpace(tail[i])
    ensures Words(w + tail) == [w]
  {
    var s := w + tail;
    if tail == [] {
      WordsOfWord(w);
      assert s == w;
    } else {
      SpanAgree(s, w, |w|);
      assert s[..|w|] == w && s[|w|..] == tail;
      assert !IsSpace(s[0]);
      WordsOfSpaces(tail);
    }
  }

  /** A word, a space, then text: the word comes first among the words. */
  lemma WordThenSpace(w: string, rest: string)
    requires IsWord(w)
    ensures Words(w + [' '] + rest) == [w] + Words(rest)
  {
    WordsAroundSpace(w, ' ', rest);
    WordsOfWord(w);
  }

  /** Count of leading whitespace characters. */
  function LeadingSpaces(s: string): (n: nat)
    ensures n <= |s|
    ensures forall i :: 0 <= i < n ==> IsSpace(s[i])
    ensures n < |s| ==> !IsSpace(s[n])
  {
    if s == [] || !IsSpace(s[0]) then 0 else 1 + LeadingSpaces(s[1..])
  }

  /** Count of trailing whitespace characters. */
  function TrailingSpaces(s: string): (n: nat)
    ensures n <= |s|
    ensures forall i :: |s| - n <= i < |s| ==> IsSpace(s[i])
    ensures n < |s| ==> !IsSpace(s[|s| - 1 - n])
  {
    if s == [] || !IsSpace(s[|s| - 1]) then 0 else 1 + TrailingSpaces(s[..|s| - 1])
  }

  /** `s.strip()`: the string without its leading and trailing whitespace. */
  function Strip(s: string): (r: string)
    ensures r == [] || (!IsSpace(r[0]) && !IsSpace(r[|r| - 1]))
    ensures LeadingSpaces(s) + |r| <= |s| && r == s[LeadingSpaces(s)..LeadingSpaces(s) + |r|]
    ensures forall j :: LeadingSpaces(s) + |r| <= j < |s| ==> IsSpace(s[j])
  {
    var t := s[LeadingSpaces(s)..];
    var r := t[..|t| - TrailingSpaces(t)];
    assert r == s[LeadingSpaces(s)..LeadingSpaces(s) + |r|];
    r
  }

  /** The decimal digit character for `d`. */
  function DigitChar(d: nat): (c: char)
    requires d < 10
    ensures '0' <= c <= '9'
  {
    ('0' as int + d) as char
  }

  predicate IsDigits(s: string) {
    s != [] && forall i :: 0 <= i < |s| ==> '0' <= s[i] <= '9'
  }

  /** `str(n)` for a natural number. */
  function NatToString(n: nat): (s: string)
    ensures IsDigits(s)
  {
    if n < 10 then [DigitChar(n)] else NatToString(n / 10) + [DigitChar(n % 10)]
  }

  /** `str(i)` for any integer: a minus sign for negatives. */
  function IntToString(i: int): string {
    if i < 0 then "-" + NatToString(-i) else NatToString(i)
  }

  /** The number a string of decimal digits denotes. */
  function DigitsValue(s: string): nat
    requires forall i :: 0 <= i < |s| ==> '0' <= s[i] <= '9'
  {
    if s == [] then 0 else DigitsValue(s[..|s| - 1]) * 10 + (s[|s| - 1] as int - '0' as int)
  }

  /** Reading back the decimal text of a number gives the number. */
  lemma {:induction false} NatToStringRoundTrip(n: nat)
    ensures DigitsValue(NatToString(n)) == n
    decreases n
  {
    if n >= 10 {
      NatToStringRoundTrip(n / 10);
      var s := NatToString(n);
      assert s[..|s| - 1] == NatToString(n / 10);
    }
  }

  /** Only the text of a negative number starts with a minus sign. */
  lemma SignOfText(i: int)
    ensures IntToString(i) != [] && (IntToString(i)[0] == '-' <==> i < 0)
  {
    if i >= 0 { assert IsDigits(NatToString(i)); }
  }

  /** The decimal text of a natural number determines it. */
  lemma NatToStringInjective(a: nat, b: nat)
    requires NatToString(a) == NatToString(b)
    ensures a == b
  {
    NatToStringRoundTrip(a);
    NatToStringRoundTrip(b);
  }

  /** The decimal text of an integer determines it: `str` is injective. */
  lemma IntToStringInjective(i: int, j: int)
    requires IntToString(i) == IntToString(j)
    ensures i == j
  {
    SignOfText(i);
    SignOfText(j);
    if i < 0 {
      assert j < 0;
      assert NatToString(-i) == IntToString(i)[1..] == IntToString(j)[1..] == NatToString(-j);
      NatToStringInjective(-i, -j);
    } else {
      assert j >= 0;
      NatToStringInjective(i, j);
    }
  }

  /** Equal strings with the same prefix and suffix agree in between. */
  lemma Cancel(p: string, x: string, y: string, q: string)
    requires p + x + q == p + y + q
    ensures x == y
  {
    var a, b := p + x + q, p + y + q;
    assert |x| == |y|;
    assert x == a[|p|..|p| + |x|];
    assert y == b[|p|..|p| + |y|];
  }

  /** All writes of a response, concatenated. */
  function Concat(parts: seq<string>): string {
    if parts == [] then "" else parts[0] + Concat(parts[1..])
  }

  lemma ConcatPair(a: string, b: string)
    ensures Concat([a, b]) == a + b
  {
    assert [a, b][1..] == [b] && [b][1..] == [];
    assert Concat([b]) == b + Concat([]) == b;
  }
}

=== FILE: wildcard.dfy ===
/**
 * Matching a path against a route pattern in which each '*' stands for one
 * non-empty path segment. The server compiles such a pattern into the
 * regular expression `^` + pattern with every '*' replaced by `([^/]+)` + `$`;
 * `Match` is that expression's matcher written out: literal characters
 * compare exactly, and each '*' first tries the longest run of non-'/'
 * characters, then shorter ones, as a backtracking regex engine does.
 */
module Wildcard {
  import opened Wrappers
  import opened Text

  /** Characters a pattern must avoid for the regular expression to read it
      literally: every regex metacharacter except '*'. */
  predicate Plain(pattern: string) {
    forall i :: 0 <= i < |pattern| ==> pattern[i] !in ".^$+?{}[]\\|()"
  }

  /** What one '*' may capture: a non-empty string without '/'. */
  predicate IsSegment(c: string) {
    c != "" && '/' !in c
  }

  predicate AllSegments(caps: seq<string>) {
    forall i :: 0 <= i < |caps| ==> IsSegment(caps[i])
  }

  /** The pattern with its stars replaced, left to right, by the captures. */
  function Substitute(pattern: string, caps: seq<string>): string
    requires |caps| == Count(pattern, '*')
  {
    if pattern == [] then ""
    else if pattern[0] == '*' then caps[0] + Substitute(pattern[1..], caps[1..])
    else [pattern[0]] + Substitute(pattern[1..], caps)
  }

  /** The meaning of a match: one segment per star, in order, and putting them
      back into the pattern gives the path. */
  predicate Accepts(pattern: string, path: string, caps: seq<string>) {
    |caps| == Count(pattern, '*') && AllSegments(caps) && Substitute(pattern, caps) == path
  }

  /** Length of the leading run of non-'/' characters: the most one star can take. */
  function SegmentRun(s: string): (n: nat)
    ensures n <= |s|
    ensures '/' !in s[..n]
    ensures n < |s| ==> s[n] == '/'
  {
    if s == [] || s[0] == '/' then 0
    else
      var m := SegmentRun(s[1..]);
      assert s[..m + 1] == [s[0]] + s[1..][..m];
      1 + m
  }

  /** `compiled.match(path)`: the captured groups, or None. */
  function Match(pattern: string, path: string): (r: Option<seq<string>>)
    ensures r.Some? ==> Accepts(pattern, path, r.value)
    decreases |pattern|, 1, 0
  {
    if pattern == [] then
      if path == [] then Some([]) else None
    else if pattern[0] == '*' then
      MatchStar(pattern[1..], path, SegmentRun(path))
    else if path != [] && path[0] == pattern[0] then
      Match(pattern[1..], path[1..])
    else
      None
  }

  /** A star followed by `rest`, trying captures of length n, n-1, ..., 1. */
  function MatchStar(rest: string, path: string, n: nat): (r: Option<seq<string>>)
    requires n <= SegmentRun(path)
    ensures r.Some? ==> Accepts(['*'] + rest, path, r.value)
    decreases |rest| + 1, 0, n
  {
    if n == 0 then None
    else
      match Match(rest, path[n..])
      case Some(caps) =>
        assert path[..n] + Substitute(rest, caps) == path;
        assert (['*'] + rest)[1..] == rest;
        Some([path[..n]] + caps)
      case None =>
        MatchStar(rest, path, n - 1)
  }

  /** A star can take any segment that starts the path. */
  lemma {:induction false} SegmentRunCovers(c: string, s: string)
    requires '/' !in c
    ensures |c| <= SegmentRun(c + s)
    decreases |c|
  {
    if c != [] {
      assert (c + s)[0] == c[0];
      assert (c + s)[1..] == c[1..] + s;
      SegmentRunCovers(c[1..], s);
    }
  }

  /** A segment followed by '/' or by nothing is exactly the leading run. */
  lemma {:induction false} SegmentRunExact(c: string, s: string)
    requires '/' !in c
    requires s == [] || s[0] == '/'
    ensures SegmentRun(c + s) == |c|
    decreases |c|
  {
    if c == [] {
      assert c + s == s;
    } else {
      assert (c + s)[0] == c[0];
      assert (c + s)[1..] == c[1..] + s;
      SegmentRunExact(c[1..], s);
    }
  }

  /** Every way of accepting a path is found: if some captures fit, Match
      succeeds (and, by its postcondition, with captures that fit). */
  lemma {:induction false} MatchComplete(pattern: string, path: string, caps: seq<string>)
    requires Accepts(pattern, path, caps)
    ensures Match(pattern, path).Some?
    decreases |pattern|
  {
    if pattern == [] {
    } else if pattern[0] == '*' {
      var rest := pattern[1..];
      var c := caps[0];
      assert pattern == ['*'] + rest;
      assert IsSegment(c);
      assert path == c + Substitute(rest, caps[1..]);
      assert path[..|c|] == c;
      SegmentRunCovers(c, Substitute(rest, caps[1..]));
      assert path[|c|..] == Substitute(rest, caps[1..]);
      assert AllSegments(caps[1..]);
      MatchComplete(rest, path[|c|..], caps[1..]);
      MatchStarComplete(rest, path, SegmentRun(path), |c|);
    } else {
      assert path == [pattern[0]] + Substitute(pattern[1..], caps);
      assert path[1..] == Substitute(pattern[1..], caps);
      MatchComplete(pattern[1..], path[1..], caps);
    }
  }

  lemma {:induction false} MatchStarComplete(rest: string, path: string, n: nat, m: nat)
    requires 1 <= m <= n <= SegmentRun(path)
    requires Match(rest, path[m..]).Some?
    ensures MatchStar(rest, path, n).Some?
    decreases n
  {
    if n > m && Match(rest, path[n..]).None? {
      MatchStarComplete(rest, path, n - 1, m);
    }
  }

  /** Every star is followed by '/' or ends the pattern. */
  predicate StarsDelimited(pattern: string) {
    forall i :: 0 <= i < |pattern| && pattern[i] == '*' ==> i + 1 == |pattern| || pattern[i + 1] == '/'
  }

  /** A literal '/' leading the pattern leads every substitution. */
  lemma SubstituteSlash(pattern: string, caps: seq<string>)
    requires |caps| == Count(pattern, '*')
    requires pattern != [] && pattern[0] == '/'
    ensures Substitute(pattern, caps) != [] && Substitute(pattern, caps)[0] == '/'
  {
  }

  /** When stars are delimited by '/', the captures of a path are unique. */
  lemma {:induction false} CapturesUnique(pattern: string, path: string, c1: seq<string>, c2: seq<string>)
    requires StarsDelimited(pattern)
    requires Accepts(pattern, path, c1) && Accepts(pattern, path, c2)
    ensures c1 == c2
    decreases |pattern|
  {
    if pattern == [] {
    } else {
      var rest := pattern[1..];
      assert StarsDelimited(rest) by {
        forall i | 0 <= i < |rest| && rest[i] == '*'
          ensures i + 1 == |rest| || rest[i + 1] == '/'
        {
          assert pattern[i + 1] == '*';
        }
      }
      if pattern[0] == '*' {
        var a, b := c1[0], c2[0];
        var sa, sb := Substitute(rest, c1[1..]), Substitute(rest, c2[1..]);
        assert path == a + sa && path == b + sb;
        assert IsSegment(a) && IsSegment(b);
        assert |a| == |b| by {
          if rest != [] {
            assert rest[0] == '/';
            SubstituteSlash(rest, c1[1..]);
            SubstituteSlash(rest, c2[1..]);
          }
          SegmentRunExact(a, sa);
          SegmentRunExact(b, sb);
        }
        assert a == path[..|a|] && b == path[..|b|];
        assert sa == path[|a|..] && sb == path[|a|..];
        assert AllSegments(c1[1..]) && AllSegments(c2[1..]);
        CapturesUnique(rest, path[|a|..], c1[1..], c2[1..]);
        assert c1 == [a] + c1[1..] && c2 == [b] + c2[1..];
      } else {
        assert path[1..] == Substitute(rest, c1) && path[1..] == Substitute(rest, c2);
        CapturesUnique(rest, path[1..], c1, c2);
      }
    }
  }

  /** When stars are delimited by '/', the compiled expression matches a
      path exactly when some captures fit, and returns those captures. */
  lemma MatchFinds(pattern: string, path: string, caps: seq<string>)
    requires StarsDelimited(pattern)
    requires Accepts(pattern, path, caps)
    ensures Match(pattern, path) == Some(caps)
  {
    MatchComplete(pattern, path, caps);
    CapturesUnique(pattern, path, Match(pattern, path).value, caps);
  }

  /** The pattern of one wildcard segment under the root captures that segment. */
  lemma RootSegmentMatch(name: string)
    requires IsSegment(name)
    ensures Match("/*", "/" + name) == Some([name])
  {
    var pattern := "/*";
    assert pattern[1..] == "*" && "*"[1..] == [];
    assert Count(pattern, '*') == 1;
    assert Substitute("*", [name]) == name + Substitute([], []);
    assert Substitute(pattern, [name]) == [pattern[0]] + Substitute(pattern[1..], [name]);
    MatchFinds(pattern, "/" + name, [name]);
  }

  /** Substituting segments keeps the pattern's '/' count: the path has as
      many '/' as the pattern. */
  lemma {:induction false} SubstituteSlashCount(pattern: string, caps: seq<string>)
    requires |caps| == Count(pattern, '*') && AllSegments(caps)
    ensures Count(Substitute(pattern, caps), '/') == Count(pattern, '/')
    decreases |pattern|
  {
    if pattern != [] {
      if pattern[0] == '*' {
        assert AllSegments(caps[1..]);
        SubstituteSlashCount(pattern[1..], caps[1..]);
        CountAppend(caps[0], Substitute(pattern[1..], caps[1..]), '/');
        CountZero(caps[0], '/');
      } else {
        SubstituteSlashCount(pattern[1..], caps);
        CountAppend([pattern[0]], Substitute(pattern[1..], caps), '/');
      }
    }
  }
}

=== FILE: wrappers.dfy ===
/** The usual optional-value datatype. */
module Wrappers {

  datatype Option<+T> = None | Some(value: T) {

    /** The wrapped value, or `default` when there is none. */
    function GetOr(default: T): T {
      match this
      case Some(v) => v
      case None => default
    }
  }
}
